=== FILE: README.md ===
# Spectroscopy comparison backend, modelled in Dafny

This project models the computational core of a web backend for comparing
spectra. A user uploads a baseline spectrum and several sample spectra, and
the backend does four things:

- It scores each sample against the baseline. The scores are the sum of
  squared errors after interpolating the sample onto the baseline's x values,
  its mean, its root, and the discrete Fréchet distance between the two curves.
  Large inputs are first thinned by striding.
- It draws each sample on a wavenumber axis whose eleven custom ticks
  (4000 … 550 cm⁻¹) are equally spaced. Every x value is mapped piecewise
  linearly to a position on that axis.
- It saves the images under a sanitised subdirectory of the save directory and
  returns URL paths for them. The export endpoint maps those URL paths back to
  files and archives every file that exists under its bare name.
- It keeps chat conversations in an in-memory map and renders the last five
  messages of a history into the prompt of the assistant.

The modules follow that structure:

- `Wrappers`, `PyStr` and `PosixPath` hold the Python string and path
  primitives the code relies on: `str.replace`, `strip`, `lower`, `rfind`,
  `os.path.join`, `basename` and `splitext`.
- `Decimation` models `df.iloc[::step]` thinning.
- `Curves`, `Frechet`, `Coupling` and `FrechetTable` model the Fréchet distance.
  `Frechet` holds the table recurrence. `Coupling` holds its characterisation
  as the least leash over all couplings. `FrechetTable` holds the table-filling
  loops.
- `Interpolation` models `np.interp`. `Metrics` models
  `calculate_similarity_metrics`.
- `TickScale` models `map_x_to_position`.
- `Plotter` models output naming in `generate_and_save`. `Export` models path
  resolution and archive naming in `generate_graphs`.
- `ChatHistory` models `format_conversation_history`. `ChatStore` models the
  conversation store and its endpoints.

## Model

| member | source | states |
|---|---|---|
| `Decimation.Decimate` | backend/graph_analysis.py:167-173 | definition; see the lemmas below |
| `Decimation.Stride` | backend/graph_analysis.py:169 | `s[::step]` is never longer than `s` and keeps the first row |
| `Decimation.StrideLength` | backend/graph_analysis.py:169 | `s[::step]` has ceil(len / step) rows |
| `Decimation.StrideElements` | backend/graph_analysis.py:191 | row k of `s[::step]` is row k·step of `s` |
| `Decimation.DecimateKeeps` | backend/graph_analysis.py:167-173 | at most `cap` rows are kept unchanged; more are strided by `len // cap` |
| `Decimation.DecimateBelowTwiceCap` | backend/graph_analysis.py:167-169 | thinning leaves fewer than twice the cap rows, not at most the cap |
| `Decimation.DecimateIdempotent` | backend/graph_analysis.py:167-169 | thinning an already thinned curve with the same cap changes nothing |
| `Decimation.DecimateSubsequence` | backend/graph_analysis.py:167-173 | the first row survives, and every kept row is an input row |
| `Decimation.DecimateMayExceedCap` | backend/graph_analysis.py:163-169 | 9999 rows with cap 5000 are all kept, because the step is 1 |
| `Decimation.DecimateEvenSplit` | backend/graph_analysis.py:163-169 | 10000 rows with cap 5000 keep exactly the 5000 even-indexed rows |
| `Curves.SqDist` | backend/graph_analysis.py:106 | the squared distance is non-negative and zero on equal points |
| `Curves.EuclidIsDistance` | backend/graph_analysis.py:142 | the Euclidean distance is non-negative, symmetric and zero on equal points |
| `Frechet.Ca` | backend/graph_analysis.py:103-122 | definition; see the lemmas below |
| `Frechet.FrechetDistance` | backend/graph_analysis.py:103-124 | definition; see the lemmas below |
| `Frechet.MaxOf` | backend/graph_analysis.py:109-111 | the maximum is an element, and every element is at most it |
| `Frechet.FirstRowIsRunningMax` | backend/graph_analysis.py:109-111 | cell (0, j) is the largest distance from the first point of P to Q[0..j] |
| `Frechet.FirstColumnIsRunningMax` | backend/graph_analysis.py:114-116 | cell (i, 0) is the largest distance from P[0..i] to the first point of Q |
| `Frechet.BoundaryNonDecreasing` | backend/graph_analysis.py:109-116 | the first row and the first column never decrease |
| `Frechet.SinglePointCurve` | backend/graph_analysis.py:100-124 | against a one-point curve the distance is the largest point distance |
| `Frechet.CellLowerBounds` | backend/graph_analysis.py:119-122 | every cell is at least its own point distance and at least the corner distance |
| `Frechet.FrechetAtLeastEndpoints` | backend/graph_analysis.py:124 | the distance is at least the first-point distance and the last-point distance |
| `Frechet.CellNonNegative` | backend/graph_analysis.py:103-122 | with a non-negative point distance, every cell is non-negative |
| `Frechet.CaTranspose` | backend/graph_analysis.py:103-122 | swapping the curves transposes the table when the distance is symmetric |
| `Frechet.FrechetSymmetric` | backend/graph_analysis.py:135-155 | the Fréchet distance does not depend on the order of the curves |
| `Frechet.DiagonalZero` | backend/graph_analysis.py:119-122 | comparing a curve with itself gives zero on the diagonal |
| `Frechet.FrechetSelfZero` | backend/graph_analysis.py:135-155 | a curve is at distance zero from itself |
| `Coupling.TableBelowEveryWalk` | backend/graph_analysis.py:119-122 | no monotone walk to cell (i, j) has a shorter leash than the table value there |
| `Coupling.BestWalk` | backend/graph_analysis.py:119-122 | some monotone walk to cell (i, j) has a leash of exactly the table value |
| `Coupling.FrechetBelowEveryCoupling` | backend/graph_analysis.py:124 | the result is at most the leash of every coupling of the two curves |
| `Coupling.FrechetAttained` | backend/graph_analysis.py:155 | some coupling attains the result, so it is the least leash over all couplings |
| `FrechetTable.ComputeFrechet` | backend/graph_analysis.py:100-124 | the row-by-row table fill returns the recurrence's value at the last cell |
| `Interpolation.LerpEnds` | backend/graph_analysis.py:182 | the segment line passes through both of its sample points |
| `Interpolation.Interp` | backend/graph_analysis.py:182 | left of the first sample x, the first y is used |
| `Interpolation.InterpClampsRight` | backend/graph_analysis.py:182 | at or right of the last sample x, the last y is used |
| `Interpolation.InterpAtSamplePoint` | backend/graph_analysis.py:182 | at a sample x, the interpolant is that sample's y |
| `Interpolation.InterpOnSegment` | backend/graph_analysis.py:182 | between two neighbouring sample points, the interpolant is the line through them |
| `Metrics.DecimatePreservesAscending` | backend/graph_analysis.py:171-173 | thinning keeps an ascending sample ascending |
| `Metrics.CurvesKeepShape` | backend/graph_analysis.py:167-199 | both thinning stages keep the first row and keep x ascending |
| `Metrics.SquaredError` | backend/graph_analysis.py:183 | the sum of squared residuals is non-negative |
| `Metrics.SquaredErrorZeroIff` | backend/graph_analysis.py:182-183 | the error is zero exactly when every baseline row lies on the interpolated sample |
| `Metrics.SquaredErrorSelfZero` | backend/graph_analysis.py:182-183 | an ascending curve has zero squared error against itself |
| `Metrics.Mean` | backend/graph_analysis.py:184 | the mean times the row count is the total, and it is non-negative when the total is |
| `Metrics.SimilarityMetrics` | backend/graph_analysis.py:157-218 | an empty curve gives the error report that NumPy or the division raises. Otherwise: SSE is the residual sum over the curves thinned to 5000 rows, and SSE ≥ 0; the Fréchet value is the Fréchet distance of the curves thinned again to 500 rows, and it is at least the first-point distance; normalised SSE = SSE / rows; RMSE² = normalised SSE; SSE = 0 iff the thinned baseline lies on the thinned sample |
| `Metrics.ReportedFrechetIsLeastLeash` | backend/graph_analysis.py:188-201 | the reported Fréchet value is the least leash over all couplings of the two curves after both thinning stages: no coupling is shorter, and one attains it |
| `Metrics.SelfComparisonIsZero` | backend/graph_analysis.py:157-208 | a curve compared with itself scores zero on all four metrics |
| `TickScale.TicksDescending` | backend/utils/plotter.py:41 | the custom ticks strictly decrease from left to right |
| `TickScale.PositionOf` | backend/utils/plotter.py:54-67 | definition; see the lemmas below |
| `TickScale.FindSegment` | backend/utils/plotter.py:60-67 | the scan returns the first segment holding x, or none when no later segment holds it |
| `TickScale.FindSegmentSucceeds` | backend/utils/plotter.py:58-67 | a value between the ticks always finds a segment |
| `TickScale.SegmentPositionBounds` | backend/utils/plotter.py:63-66 | a value inside segment i gets a position between i and i + 1 |
| `TickScale.SegmentPositionAtTicks` | backend/utils/plotter.py:63-66 | the segment's two ticks get positions i and i + 1 |
| `TickScale.SegmentPositionAntitone` | backend/utils/plotter.py:63-66 | within a segment, a larger wavenumber never gets a larger position |
| `TickScale.PositionTotal` | backend/utils/plotter.py:52-67 | every value gets a position, and it lies in [0, 10] |
| `TickScale.MapXToPosition` | backend/utils/plotter.py:50-68 | the output is never longer than the input |
| `TickScale.MapXToPositionPointwise` | backend/utils/plotter.py:50-68 | no value is dropped, and position k belongs to value k |
| `TickScale.TickLandsOnIndex` | backend/utils/plotter.py:41-47 | tick i is mapped to position i, so the ticks are equally spaced |
| `TickScale.PositionAntitone` | backend/utils/plotter.py:54-67 | larger wavenumbers never sit to the right of smaller ones |
| `PyStr.ReplaceAll` | backend/utils/plotter.py:28 | definition; see the lemmas below |
| `PyStr.RemoveDoubleDotsLeavesNone` | backend/utils/plotter.py:28 | removing `..` left to right leaves no `..` behind |
| `PyStr.RemoveDoubleDotsOnRun` | backend/utils/plotter.py:28 | a run of k dots shrinks to k mod 2 dots |
| `PyStr.ReplaceCharPointwise` | backend/utils/plotter.py:28 | replacing one character by another changes only those characters |
| `PyStr.Strip` | backend/utils/plotter.py:28 | the strip result is a slice of the input, everything cut off before and after it is whitespace, and it neither starts nor ends with whitespace |
| `PyStr.Lower` | backend/utils/plotter.py:133 | lower-casing maps each character on its own and keeps the length |
| `PyStr.RFind` | backend/utils/plotter.py:134 | `rfind` gives the last index of the character, or -1 |
| `PosixPath.Join` | backend/utils/plotter.py:30 | an absolute second part replaces the first; when the first part is empty or ends in `/` the second is appended as is; otherwise one `/` is inserted between them |
| `PosixPath.Basename` | backend/utils/plotter.py:150 | the basename is the suffix after the last `/` |
| `PosixPath.BasenameOfJoin` | backend/utils/plotter.py:150 | joining a plain name onto a directory leaves that name as the basename |
| `PosixPath.SplitExt` | backend/utils/plotter.py:134 | the root and the extension concatenate back to the path; a non-empty extension starts with its only dot, holds no `/`, and is preceded in the last component by a non-dot character; an empty extension means every dot of the last component has only dots before it |
| `Plotter.SanitizeSubdir` | backend/utils/plotter.py:28 | the sanitised subdirectory holds no `/` and no `..` |
| `Plotter.SanitizeDotRun` | backend/utils/plotter.py:28 | a subdirectory of k dots sanitises to k mod 2 dots, never to `..` |
| `Plotter.SafeSubdir` | backend/utils/plotter.py:26-29 | a subdirectory is used iff it is given, non-empty and non-empty after sanitising; a used one has no `/` and no `..` |
| `Plotter.TargetDir` | backend/utils/plotter.py:24-30 | definition; see the lemmas below |
| `Plotter.OutPath` | backend/utils/plotter.py:133-135 | definition; see the lemmas below |
| `Plotter.RelPath` | backend/utils/plotter.py:146-151 | definition; see the lemmas below |
| `Plotter.TargetDirShape` | backend/utils/plotter.py:25-30 | the target is the save directory itself or a direct child of it, named by the sanitised subdirectory |
| `Plotter.FileExtension` | backend/utils/plotter.py:133 | the extension is png, jpeg or jpg: the lower-cased format when supported, otherwise png |
| `Plotter.FileExtensionIgnoresCase` | backend/utils/plotter.py:133 | the choice of extension ignores ASCII case |
| `Plotter.FileExtensionExamples` | backend/utils/plotter.py:133 | `PNG` gives png, `Jpeg` jpeg, `JPG` jpg, `svg` png and the empty format png |
| `Plotter.OutName` | backend/utils/plotter.py:134 | an output name built from parts without `/` has no `/` |
| `Plotter.OutNameSplitsBack` | backend/utils/plotter.py:134 | splitting the output name's extension gives back the sample's stem and the chosen extension |
| `Plotter.RelPathShape` | backend/utils/plotter.py:147-151 | the URL path is the prefix plus the output name, or the prefix plus the subdirectory and the output name |
| `Plotter.GenerateAndSave` | backend/utils/plotter.py:21-153 | one URL path per sample, in order |
| `Plotter.SavedFiles` | backend/utils/plotter.py:135 | one written file per sample, in order; `Export.ExportArchivesEveryGraph` shows the archive holds exactly these files |
| `Export.ResolveSavedPath` | backend/app.py:44-47 | definition; see the lemmas below |
| `Export.Archive` | backend/app.py:42-51 | definition; see the lemmas below |
| `Export.ResolvePrefixedPath` | backend/app.py:44-45 | a prefixed path whose remainder holds no second prefix resolves to the save directory joined with that remainder |
| `Export.ResolveOtherPath` | backend/app.py:46-47 | any other path resolves to a direct child of the save directory named by the path's basename (`SAVE_DIR/<basename>` when the directory does not end in `/`); a path ending in `/` resolves to the save directory itself |
| `Export.ResolveRemovesInnerPrefix` | backend/app.py:45 | every occurrence of the prefix is removed, not only the leading one |
| `Export.JoinNested` | backend/app.py:45 | joining twice equals joining once with the slash-separated names |
| `Export.ResolveDefaultDir` | backend/app.py:44-45 | a default-directory URL resolves to the save directory joined with the output name |
| `Export.ResolveSubdir` | backend/app.py:44-45 | a subdirectory URL resolves to the save directory, then the subdirectory, then the output name |
| `Export.ResolveRelPathIsOutPath` | backend/app.py:42-47 | for a sample filename without `/`, the URL path the plotter returns resolves back to the file it wrote |
| `Export.SlashedNameMissesFile` | backend/app.py:45-46 | a filename `a + "/static/generated_graphs/" + b` (parts without `.` or `/`) breaks the round trip: the plotter's output path is `SAVE_DIR/<filename>.png`, but its URL path resolves to `SAVE_DIR/<a><b>.png` |
| `Export.ArchiveEntries` | backend/app.py:42-51 | every archived file exists and is stored under its basename, which has no `/` |
| `Export.ArchiveEntriesInOrder` | backend/app.py:42-51 | the entries follow `saved_paths`: those of a concatenation are the entries of the first part followed by those of the second |
| `Export.ArchiveEntriesOfOne` | backend/app.py:43-51 | a single URL path gives one entry, its resolved file under its basename, when that file exists, and none otherwise |
| `Export.ArchiveEntriesComplete` | backend/app.py:49-51 | a path's file is archived exactly when it exists |
| `Export.ArchiveEntriesAllExist` | backend/app.py:42-51 | when every file exists, none is skipped and the order is kept |
| `Export.OneGraphArchived` | backend/app.py:42-51 | for a sample filename without `/`, one graph's URL resolves to its file, and the file is archived under the output name |
| `Export.ExportArchivesEveryGraph` | backend/app.py:37-51 | for sample filenames without `/`, when every written file exists, the archive holds exactly the written files, one entry per sample, in order, named by the sample's output name |
| `ChatHistory.RenderMessage` | backend/chatbox.py:114-115 | definition; see the lemmas below |
| `ChatHistory.RenderAll` | backend/chatbox.py:113-115 | definition; see the lemmas below |
| `ChatHistory.RoleLabel` | backend/chatbox.py:114 | `user` is shown as User; every other role is shown as Assistant |
| `ChatHistory.LastN` | backend/chatbox.py:113 | the window is the suffix of length min(len, 5) |
| `ChatHistory.FormatConversationHistory` | backend/chatbox.py:107-116 | the output is empty iff the history is missing or empty; otherwise it starts with the header |
| `ChatHistory.RenderAllConcat` | backend/chatbox.py:113-115 | rendering a list of messages is rendering its parts one after the other |
| `ChatHistory.RenderAllPointwise` | backend/chatbox.py:113-115 | each message contributes exactly its own line, in order |
| `ChatHistory.FormatDropsOlder` | backend/chatbox.py:113 | messages older than the last five never reach the output |
| `ChatHistory.FormatAppendBelowWindow` | backend/chatbox.py:113-115 | below five messages, a new message appends exactly its own line |
| `ChatHistory.FormatSlidesWindow` | backend/chatbox.py:113-115 | from five messages on, a new message pushes the oldest rendered line out |
| `ChatHistory.FormatLineCount` | backend/chatbox.py:112-115 | with single-line contents, the block has 1 + min(len, 5) lines |
| `ChatStore.RecordExchange` | backend/chatbox.py:285-291 | the id is created if missing; exactly the question then the answer are appended; other ids are unchanged |
| `ChatStore.SendMessage` | backend/chatbox.py:119-299 | only a non-empty generated answer is stored; a missing library or API key answers 500 with `Google Generative AI library not available` or `Gemini AI API key not configured`; configuration errors, fallbacks and failed generation leave the store unchanged; an exception outside the generation call answers 500 with `Failed to process chat message: ` and its text, and stores nothing |
| `ChatStore.GetConversationAsWritten` | backend/chatbox.py:301-320 | a known id returns its messages; an unknown id returns status 500 wrapping the not-found exception's text |
| `ChatStore.UnknownIdAnswers500` | backend/chatbox.py:307-320 | the unknown-id reply is 500 with `Failed to retrieve conversation: 404: Conversation not found` |
| `ChatStore.GetConversation` | backend/chatbox.py:307-313 | a known id returns its messages; an unknown id returns 404 with `Conversation not found` |
| `ChatStore.LookupsDifferOnlyInErrorWrapping` | backend/chatbox.py:307-320 | the two lookups agree on known ids; on an unknown id the written reply wraps the intended status and detail |
| `ChatStore.ClearConversation` | backend/chatbox.py:322-335 | exactly the given id is removed, other entries are kept, and the reply is always success |
| `ChatStore.ClearUnknownIsNoOp` | backend/chatbox.py:328-329 | clearing an unknown id changes nothing |
| `ChatStore.ClearIdempotent` | backend/chatbox.py:328-329 | clearing twice is clearing once |
| `ChatStore.RecordThenGet` | backend/chatbox.py:285-313 | after storing an exchange, the lookup returns the earlier messages followed by the pair |
| `ChatStore.ClearThenGet` | backend/chatbox.py:307-329 | after clearing, the lookup reports the id as not found |
| `ChatStore.OtherIdsUnaffected` | backend/chatbox.py:285-329 | storing or clearing one id leaves the lookup of every other id unchanged |
| `ChatStore.EmptyStoreWellFormed` | backend/chatbox.py:48 | the store starts empty, and the empty store satisfies the question-answer pair invariant |
| `ChatStore.AppendPairAlternates` | backend/chatbox.py:288-291 | appending a user and an assistant entry keeps a history of alternating pairs |
| `ChatStore.SendMessagePreservesPairs` | backend/chatbox.py:285-291 | every request keeps each stored conversation a sequence of question-answer pairs |
| `ChatStore.ClearPreservesPairs` | backend/chatbox.py:328-329 | clearing keeps each stored conversation a sequence of question-answer pairs |

## Left out

- Floating point: scores, positions and interpolation are over Dafny's exact
  reals. IEEE rounding, `inf` and `NaN` inputs are not modelled.
- `np.sqrt` and `np.linalg.norm` are a square-root oracle passed in as a
  parameter. It is characterised by `IsSqrt`: non-negative, squares back, and
  zero at zero.
- The numba branch (backend/graph_analysis.py:100-124) and the NumPy branch
  (135-155) are the same recurrence. Both are modelled by `Frechet.Ca`, and the
  loops are modelled by `FrechetTable.ComputeFrechet`. Which branch runs depends
  on an import, which is not modelled.
- `np.interp` is modelled for strictly ascending sample x, which is what NumPy
  documents. Its result for unsorted x is unspecified, so
  `Metrics.SimilarityMetrics` requires an ascending sample.
- CSV reading with pandas, DataFrame column selection and `read_csv` errors are
  not modelled. Curves arrive as sequences of (x, y) pairs. The only exceptions
  modelled are those of an empty curve.
- The normalised SSE is the SSE divided by the number of thinned baseline rows,
  which is what the code computes. It is not a variance-normalised score.
- Drawing with matplotlib, `os.makedirs`, writing files, the temporary zip file
  and the HTTP response are not modelled. Which files exist is a parameter of
  `Export.ArchiveEntries`, and the save directory is a parameter everywhere.
- `UploadFile.filename` being `None` is not modelled; filenames are strings.
- `str.lower` is modelled on ASCII letters only. No non-ASCII character lowers
  to a letter of `png`, `jpeg` or `jpg`, so the choice of extension is exact.
  The output stem keeps its characters exactly either way.
- The Gemini client, the prompt text, `parse_graph_context` and the
  fallback-message wording are not modelled. `ChatStore.SendMessage` takes the
  backend's outcome as a parameter and models only its status and its effect
  on the store. An exception that escapes `parse_graph_context` or a fallback
  branch, such as `.get` on a context entry that is not a dictionary, is the
  `Raised` outcome; which inputs raise is not modelled.
- Export.ResolveRelPathIsOutPath: proved only for sample filenames without
  `/`. The plotter accepts such names unchanged, and `Export.SlashedNameMissesFile`
  shows names whose URL path resolves to a different file than the plotter's
  output path. For those names the directory of the output path is normally
  missing: the plotter creates only `SAVE_DIR` and the sanitised subdirectory
  (backend/utils/plotter.py:7, 31), so saving the image raises and the request
  answers 400 (backend/app.py:66-67). The graph is silently missing from the
  archive only when that directory already exists, or for a name such as
  `../../static/generated_graphs/y` whose output path leads back into
  `SAVE_DIR`; the model does not cover either case, since it does not model
  the filesystem.
- Export.ExportArchivesEveryGraph: proved only for sample filenames without
  `/`, for the same reason.
- Export.OneGraphArchived: proved only for a sample filename without `/`, for
  the same reason.
- ChatStore.SendMessage: the reply texts of the two fallback statuses are not
  modelled, only the statuses.
- Conversation ids and timestamps come from the clock and are parameters.
  `generate_conversation_id` itself is not modelled, so neither is the fact that
  two requests in the same second share an id.
- The store is a single map that requests update one at a time. Concurrent
  requests are not modelled.

## Findings

| source | as written | input that shows it | evidently intended | confidence | as-written member | corrected member |
|---|---|---|---|---|---|---|
| backend/chatbox.py:307-320 | the not-found `HTTPException` is raised inside a `try` whose `except Exception` catches it and answers with status 500 | a lookup of any unknown id, e.g. `conv_1` on an empty store, answers 500 with `Failed to retrieve conversation: 404: Conversation not found` | an unknown id answers 404 with detail `Conversation not found` | high; not executed | `ChatStore.UnknownIdAnswers500` | `ChatStore.GetConversation` |

=== FILE: chat_history.dfy ===
/**
 The chat history block of the prompt: `format_conversation_history`
 renders the last few messages of a conversation, one `Role: content`
 line each, under a fixed header.
 */
module ChatHistory {
  import opened Wrappers

  /** A message as the client sends it; the timestamp is carried but never rendered. */
  datatype ChatMessage = ChatMessage(role: string, content: string, timestamp: Option<string>)

  const Header: string := "Previous conversation:\n"

  /** How many of the most recent messages are rendered. */
  const Window: nat := 5

  /** Only the exact role `user` is shown as `User`; every other role is `Assistant`. */
  function RoleLabel(role: string): (r: string)
    ensures role == "user" ==> r == "User"
    ensures role != "user" ==> r == "Assistant"
  {
    if role == "user" then "User" else "Assistant"
  }

  function RenderMessage(m: ChatMessage): string {
    RoleLabel(m.role) + ": " + m.content + "\n"
  }

  /** The rendered lines, accumulated left to right as the loop does. */
  function RenderAll(ms: seq<ChatMessage>): string {
    if |ms| == 0 then "" else RenderAll(ms[..|ms| - 1]) + RenderMessage(ms[|ms| - 1])
  }

  /** Python's `ms[-n:]` for a positive `n`: the whole list when it is shorter. */
  function LastN(ms: seq<ChatMessage>, n: nat): (r: seq<ChatMessage>)
    requires n > 0
    ensures |r| == MinNat(|ms|, n)
    ensures r == ms[|ms| - |r|..]
  {
    if |ms| <= n then ms else ms[|ms| - n..]
  }

  /** `format_conversation_history`; `None` and the empty list are both falsy. */
  function FormatConversationHistory(messages: Option<seq<ChatMessage>>): (r: string)
    ensures (messages.None? || |messages.value| == 0) <==> r == ""
    ensures r != "" ==> |r| >= |Header| && r[..|Header|] == Header
  {
    if messages.None? || |messages.value| == 0 then ""
    else Header + RenderAll(LastN(messages.value, Window))
  }

  lemma AppendAssoc<T>(x: seq<T>, y: seq<T>, z: seq<T>)
    ensures (x + y) + z == x + (y + z)
  {
  }

  lemma SplitAround<T>(s: seq<T>, k: nat)
    requires k < |s|
    ensures s == (s[..k] + [s[k]]) + s[k + 1..]
  {
  }

  /** Appending one message appends its line. */
  lemma RenderAllSnoc(ms: seq<ChatMessage>, m: ChatMessage)
    ensures RenderAll(ms + [m]) == RenderAll(ms) + RenderMessage(m)
  {
    assert (ms + [m])[..|ms|] == ms;
  }

  /** Rendering distributes over concatenation of message lists. */
  lemma {:induction false} RenderAllConcat(a: seq<ChatMessage>, b: seq<ChatMessage>)
    ensures RenderAll(a + b) == RenderAll(a) + RenderAll(b)
    decreases |b|
  {
    if |b| == 0 {
      assert a + b == a;
    } else {
      var b', m := b[..|b| - 1], b[|b| - 1];
      assert b == b' + [m];
      assert a + b == (a + b') + [m];
      calc {
        RenderAll(a + b);
        { RenderAllSnoc(a + b', m); }
        RenderAll(a + b') + RenderMessage(m);
        { RenderAllConcat(a, b'); }
        (RenderAll(a) + RenderAll(b')) + RenderMessage(m);
        { AppendAssoc(RenderAll(a), RenderAll(b'), RenderMessage(m)); }
        RenderAll(a) + (RenderAll(b') + RenderMessage(m));
        { RenderAllSnoc(b', m); }
        RenderAll(a) + RenderAll(b);
      }
    }
  }

  /** Each message contributes exactly its own line, in order. */
  lemma RenderAllPointwise(ms: seq<ChatMessage>, k: nat)
    requires k < |ms|
    ensures RenderAll(ms) == RenderAll(ms[..k]) + RenderMessage(ms[k]) + RenderAll(ms[k + 1..])
  {
    var before, rest := ms[..k], ms[k + 1..];
    var upto := before + [ms[k]];
    SplitAround(ms, k);
    calc {
      RenderAll(ms);
      RenderAll(upto + rest);
      { RenderAllConcat(upto, rest); }
      RenderAll(upto) + RenderAll(rest);
      { RenderAllSnoc(before, ms[k]); }
      RenderAll(before) + RenderMessage(ms[k]) + RenderAll(rest);
    }
  }

  /** Messages older than the last five never reach the output. */
  lemma FormatDropsOlder(older: seq<ChatMessage>, recent: seq<ChatMessage>)
    requires |recent| >= Window
    ensures FormatConversationHistory(Some(older + recent)) == FormatConversationHistory(Some(recent))
  {
    var all := older + recent;
    assert LastN(all, Window) == all[|all| - Window..];
    assert all[|all| - Window..] == recent[|recent| - Window..];
    assert LastN(recent, Window) == recent[|recent| - Window..];
  }

  /** While the history is shorter than the window, a new message appends one line. */
  lemma FormatAppendBelowWindow(ms: seq<ChatMessage>, m: ChatMessage)
    requires 0 < |ms| < Window
    ensures FormatConversationHistory(Some(ms + [m])) == FormatConversationHistory(Some(ms)) + RenderMessage(m)
  {
    assert (ms + [m])[..|ms|] == ms;
  }

  /** Once the window is full, a new message pushes the oldest rendered one out. */
  lemma FormatSlidesWindow(ms: seq<ChatMessage>, m: ChatMessage)
    requires |ms| >= Window
    ensures FormatConversationHistory(Some(ms + [m]))
         == Header + RenderAll(ms[|ms| - Window + 1..]) + RenderMessage(m)
  {
    var kept := ms[|ms| - Window + 1..];
    SuffixOfSnoc(ms, m, Window);
    assert LastN(ms + [m], Window) == kept + [m];
    RenderAllSnoc(kept, m);
  }

  lemma SuffixOfSnoc<T>(s: seq<T>, x: T, n: nat)
    requires 0 < n <= |s|
    ensures (s + [x])[|s| + 1 - n..] == s[|s| - n + 1..] + [x]
  {
  }

  /** Number of occurrences of `c` in `s`. */
  function Count(s: string, c: char): nat {
    if |s| == 0 then 0 else Count(s[..|s| - 1], c) + (if s[|s| - 1] == c then 1 else 0)
  }

  lemma {:induction false} CountConcat(a: string, b: string, c: char)
    ensures Count(a + b, c) == Count(a, c) + Count(b, c)
    decreases |b|
  {
    if |b| == 0 {
      assert a + b == a;
    } else {
      assert (a + b)[..|a + b| - 1] == a + b[..|b| - 1];
      CountConcat(a, b[..|b| - 1], c);
    }
  }

  predicate SingleLine(m: ChatMessage) {
    forall k :: 0 <= k < |m.content| ==> m.content[k] != '\n'
  }

  lemma {:induction false} CountAbsent(s: string, c: char)
    requires forall k :: 0 <= k < |s| ==> s[k] != c
    ensures Count(s, c) == 0
    decreases |s|
  {
    if |s| > 0 {
      CountAbsent(s[..|s| - 1], c);
    }
  }

  /** A message whose content holds no line break renders as exactly one line. */
  lemma RenderMessageOneLine(m: ChatMessage)
    requires SingleLine(m)
    ensures Count(RenderMessage(m), '\n') == 1
  {
    var head := RoleLabel(m.role) + ": " + m.content;
    CountConcat(head, "\n", '\n');
    CountConcat(RoleLabel(m.role) + ": ", m.content, '\n');
    CountAbsent(m.content, '\n');
    CountAbsent(RoleLabel(m.role) + ": ", '\n');
    assert Count("\n", '\n') == Count("", '\n') + 1;
  }

  lemma {:induction false} RenderAllLines(ms: seq<ChatMessage>)
    requires forall k :: 0 <= k < |ms| ==> SingleLine(ms[k])
    ensures Count(RenderAll(ms), '\n') == |ms|
    decreases |ms|
  {
    if |ms| > 0 {
      RenderAllLines(ms[..|ms| - 1]);
      CountConcat(RenderAll(ms[..|ms| - 1]), RenderMessage(ms[|ms| - 1]), '\n');
      RenderMessageOneLine(ms[|ms| - 1]);
    }
  }

  lemma HeaderOneLine()
    ensures Count(Header, '\n') == 1
  {
    var text := Header[..|Header| - 1];
    assert Header == text + "\n";
    CountAbsent(text, '\n');
    CountConcat(text, "\n", '\n');
    assert Count("\n", '\n') == Count("", '\n') + 1;
  }

  /**
   With single-line contents the block has one header line plus one line
   per rendered message, at most six lines in all.
   */
  lemma FormatLineCount(ms: seq<ChatMessage>)
    requires |ms| > 0
    requires forall k :: 0 <= k < |ms| ==> SingleLine(ms[k])
    ensures Count(FormatConversationHistory(Some(ms)), '\n') == 1 + MinNat(|ms|, Window)
  {
    var w := LastN(ms, Window);
    assert forall k :: 0 <= k < |w| ==> w[k] == ms[|ms| - |w| + k];
    RenderAllLines(w);
    CountConcat(Header, RenderAll(w), '\n');
    HeaderOneLine();
  }
}

=== FILE: chat_store.dfy ===
/**
 The in-memory conversation store behind the chat endpoints: a map from a
 conversation id to the messages stored under it. `send_message` appends a
 question and its answer, the lookup endpoint reads one conversation back,
 and the delete endpoint drops one.
 */
module ChatStore {

  /** One stored entry; `role` is `user` or `assistant`, the timestamp an ISO text. */
  datatype StoredMessage = StoredMessage(role: string, content: string, timestamp: string)

  type Sessions = map<string, seq<StoredMessage>>

  /** The messages under `id`, or none when the id is unknown. */
  function History(s: Sessions, id: string): seq<StoredMessage> {
    if id in s then s[id] else []
  }

  /**
   Storing a successful exchange: the id is created on first use, then the
   question and the answer are appended in that order.
   */
  function RecordExchange(s: Sessions, id: string, question: string, answer: string,
                          askedAt: string, answeredAt: string): (r: Sessions)
    ensures r.Keys == s.Keys + {id}
    ensures |r[id]| == |History(s, id)| + 2
    ensures r[id][..|History(s, id)|] == History(s, id)
    ensures r[id][|History(s, id)|] == StoredMessage("user", question, askedAt)
    ensures r[id][|History(s, id)| + 1] == StoredMessage("assistant", answer, answeredAt)
    ensures forall k :: k in s && k != id ==> r[k] == s[k]
  {
    s[id := History(s, id) + [StoredMessage("user", question, askedAt),
                              StoredMessage("assistant", answer, answeredAt)]]
  }

  /** What the generative backend did for one request. */
  datatype Backend =
    | LibraryMissing
    | KeyMissing
    | NoModel
    | GenerationFailed
    | Generated(text: string)
    | Raised(message: string)

  /** The status field of the reply; a configuration problem is an HTTP 500 with an error text. */
  datatype SendStatus = Success | Fallback | FallbackError | ServerError(error: string)

  const LibraryMissingError: string := "Google Generative AI library not available"
  const KeyMissingError: string := "Gemini AI API key not configured"
  const ProcessFailurePrefix: string := "Failed to process chat message: "

  /**
   The store-relevant part of `send_message`: only a generated, non-empty
   answer is stored; every fallback and configuration error leaves the
   store as it was. `Raised` stands for an exception thrown outside the
   generation call, such as `.get` on a context entry that is not a
   dictionary; the outer handler turns it into a 500 with its text.
   */
  function SendMessage(s: Sessions, id: string, question: string, backend: Backend,
                       askedAt: string, answeredAt: string): (r: (Sessions, SendStatus))
    ensures r.1 == Success <==> backend.Generated? && backend.text != ""
    ensures r.1 != Success ==> r.0 == s
    ensures r.1 == Success ==> r.0 == RecordExchange(s, id, question, backend.text, askedAt, answeredAt)
    ensures r.1.ServerError? <==> backend == LibraryMissing || backend == KeyMissing || backend.Raised?
    ensures backend == LibraryMissing ==> r.1 == ServerError(LibraryMissingError)
    ensures backend == KeyMissing ==> r.1 == ServerError(KeyMissingError)
    ensures backend.Raised? ==> r.1 == ServerError(ProcessFailurePrefix + backend.message)
    ensures r.1 == Fallback <==> backend == NoModel
  {
    match backend
    case LibraryMissing => (s, ServerError(LibraryMissingError))
    case KeyMissing => (s, ServerError(KeyMissingError))
    case NoModel => (s, Fallback)
    case GenerationFailed => (s, FallbackError)
    case Generated(text) =>
      if text == "" then (s, FallbackError)
      else (RecordExchange(s, id, question, text, askedAt, answeredAt), Success)
    case Raised(message) => (s, ServerError(ProcessFailurePrefix + message))
  }

  /** The reply of the lookup endpoint. */
  datatype LookupReply =
    | Conversation(conversationId: string, messages: seq<StoredMessage>)
    | ErrorReply(status: nat, error: string)

  const NotFoundStatus: nat := 404
  const NotFoundDetail: string := "Conversation not found"
  const RetrieveFailurePrefix: string := "Failed to retrieve conversation: "

  function DigitChar(d: nat): char
    requires d < 10
  {
    "0123456789"[d]
  }

  /** Decimal text of a natural number, as `str(int)` prints it. */
  function Decimal(n: nat): (r: string)
    ensures |r| > 0
    decreases n
  {
    if n < 10 then [DigitChar(n)] else Decimal(n / 10) + [DigitChar(n % 10)]
  }

  /** How an HTTP exception prints: its status code, a colon, then its detail. */
  function ExceptionText(status: nat, detail: string): string {
    Decimal(status) + ": " + detail
  }

  /**
   The lookup endpoint as written: the not-found exception is raised inside
   the `try` and caught by the generic handler, so an unknown id comes back
   as status 500 with the exception's text inside the error message.
   */
  function GetConversationAsWritten(s: Sessions, id: string): (r: LookupReply)
    ensures r.Conversation? <==> id in s
    ensures r.Conversation? ==> r.conversationId == id && r.messages == s[id]
    ensures r.ErrorReply? ==> r.status == 500
    ensures r.ErrorReply? ==> r.error == RetrieveFailurePrefix + ExceptionText(NotFoundStatus, NotFoundDetail)
  {
    if id !in s then ErrorReply(500, RetrieveFailurePrefix + ExceptionText(NotFoundStatus, NotFoundDetail))
    else Conversation(id, s[id])
  }

  /** The unknown-id reply as written, spelled out: a 500 carrying the 404's text. */
  lemma UnknownIdAnswers500()
    ensures GetConversationAsWritten(map[], "conv_1")
         == ErrorReply(500, RetrieveFailurePrefix + "404: " + NotFoundDetail)
  {
    assert Decimal(4) == "4";
    assert Decimal(40) == "4" + "0";
    assert Decimal(404) == "40" + "4";
    assert ExceptionText(404, NotFoundDetail) == "404: " + NotFoundDetail;
  }

  /** The lookup endpoint as its not-found branch intends: status 404 and the bare detail. */
  function GetConversation(s: Sessions, id: string): (r: LookupReply)
    ensures r.Conversation? <==> id in s
    ensures r.Conversation? ==> r.conversationId == id && r.messages == s[id]
    ensures r.ErrorReply? ==> r.status == NotFoundStatus && r.error == NotFoundDetail
  {
    if id !in s then ErrorReply(NotFoundStatus, NotFoundDetail)
    else Conversation(id, s[id])
  }

  /**
   The two lookups answer alike for every known id; for an unknown one the
   written reply wraps exactly the intended status and detail in a 500.
   */
  lemma LookupsDifferOnlyInErrorWrapping(s: Sessions, id: string)
    ensures id in s ==> GetConversationAsWritten(s, id) == GetConversation(s, id)
    ensures id !in s ==>
      var intended := GetConversation(s, id);
      var written := GetConversationAsWritten(s, id);
      written.status != intended.status
      && written.error == RetrieveFailurePrefix + ExceptionText(intended.status, intended.error)
  {
  }

  /** The reply of the delete endpoint. */
  datatype ClearReply = Cleared(message: string, conversationId: string, status: string)

  const ClearedMessage: string := "Conversation cleared successfully"

  /** Dropping a conversation; an unknown id is not an error. */
  function ClearConversation(s: Sessions, id: string): (r: (Sessions, ClearReply))
    ensures r.0.Keys == s.Keys - {id}
    ensures forall k :: k in r.0 ==> r.0[k] == s[k]
    ensures r.1 == Cleared(ClearedMessage, id, "success")
  {
    (if id in s then map k | k in s && k != id :: s[k] else s, Cleared(ClearedMessage, id, "success"))
  }

  /** Clearing an unknown id changes nothing. */
  lemma ClearUnknownIsNoOp(s: Sessions, id: string)
    requires id !in s
    ensures ClearConversation(s, id).0 == s
  {
  }

  lemma ClearIdempotent(s: Sessions, id: string)
    ensures ClearConversation(ClearConversation(s, id).0, id) == ClearConversation(s, id)
  {
  }

  /** After a stored exchange the lookup returns the earlier messages followed by the pair. */
  lemma RecordThenGet(s: Sessions, id: string, question: string, answer: string,
                      askedAt: string, answeredAt: string)
    ensures GetConversation(RecordExchange(s, id, question, answer, askedAt, answeredAt), id)
         == Conversation(id, History(s, id) + [StoredMessage("user", question, askedAt),
                                                StoredMessage("assistant", answer, answeredAt)])
  {
  }

  /** After clearing, the lookup reports the conversation as not found. */
  lemma ClearThenGet(s: Sessions, id: string)
    ensures GetConversation(ClearConversation(s, id).0, id) == ErrorReply(NotFoundStatus, NotFoundDetail)
  {
  }

  /** Storing or clearing one id leaves the lookup of every other id unchanged. */
  lemma OtherIdsUnaffected(s: Sessions, id: string, other: string, question: string, answer: string,
                           askedAt: string, answeredAt: string)
    requires other != id
    ensures GetConversation(RecordExchange(s, id, question, answer, askedAt, answeredAt), other)
         == GetConversation(s, other)
    ensures GetConversation(ClearConversation(s, id).0, other) == GetConversation(s, other)
  {
  }

  /** The role the `i`-th stored entry of a conversation should have. */
  function RoleAt(i: nat): string {
    if i % 2 == 0 then "user" else "assistant"
  }

  /** A conversation is a whole number of question-answer pairs. */
  predicate Alternating(h: seq<StoredMessage>) {
    |h| % 2 == 0 && forall i :: 0 <= i < |h| ==> h[i].role == RoleAt(i)
  }

  predicate WellFormed(s: Sessions) {
    forall id :: id in s ==> Alternating(s[id])
  }

  lemma EmptyStoreWellFormed()
    ensures WellFormed(map[])
  {
  }

  lemma {:induction false} AppendPairAlternates(h: seq<StoredMessage>, q: StoredMessage, a: StoredMessage)
    requires Alternating(h)
    requires q.role == "user" && a.role == "assistant"
    ensures Alternating(h + [q, a])
  {
    var h' := h + [q, a];
    assert |h'| % 2 == 0;
    forall i | 0 <= i < |h'|
      ensures h'[i].role == RoleAt(i)
    {
      if i < |h| {
        assert h'[i] == h[i];
      } else if i == |h| {
        assert i % 2 == 0;
      } else {
        assert i == |h| + 1;
        assert i % 2 == 1;
      }
    }
  }

  /** Every request keeps the store a collection of question-answer pairs. */
  lemma SendMessagePreservesPairs(s: Sessions, id: string, question: string, backend: Backend,
                                  askedAt: string, answeredAt: string)
    requires WellFormed(s)
    ensures WellFormed(SendMessage(s, id, question, backend, askedAt, answeredAt).0)
  {
    var r := SendMessage(s, id, question, backend, askedAt, answeredAt);
    if r.1 == Success {
      assert Alternating(History(s, id));
      AppendPairAlternates(History(s, id), StoredMessage("user", question, askedAt),
                           StoredMessage("assistant", backend.text, answeredAt));
    }
  }

  lemma ClearPreservesPairs(s: Sessions, id: string)
    requires WellFormed(s)
    ensures WellFormed(ClearConversation(s, id).0)
  {
  }
}

=== FILE: coupling.dfy ===
/**
 The coupling view of the discrete Fréchet distance: a coupling walks from
 (0, 0) to (n-1, m-1), each step advancing along one curve or both; its leash
 is the largest point distance it visits. The table value is the smallest
 leash over all couplings, which is what the recurrence is meant to compute.
 */
module Coupling {
  import opened Curves
  import opened Frechet

  datatype Cell = Cell(i: nat, j: nat)

  /** One step of a coupling: advance along P, along Q, or along both. */
  predicate Step(a: Cell, b: Cell) {
    || (b.i == a.i + 1 && b.j == a.j)
    || (b.i == a.i && b.j == a.j + 1)
    || (b.i == a.i + 1 && b.j == a.j + 1)
  }

  predicate InTable(w: seq<Cell>, n: nat, m: nat) {
    forall k :: 0 <= k < |w| ==> w[k].i < n && w[k].j < m
  }

  /** `w` starts at (0, 0) and moves by steps inside an n x m table. */
  predicate IsWalk(w: seq<Cell>, n: nat, m: nat) {
    && |w| > 0
    && w[0] == Cell(0, 0)
    && InTable(w, n, m)
    && forall k :: 0 <= k < |w| - 1 ==> Step(w[k], w[k + 1])
  }

  /** A coupling of P and Q: a walk that ends at the last points of both. */
  predicate IsCoupling(w: seq<Cell>, n: nat, m: nat) {
    IsWalk(w, n, m) && w[|w| - 1] == Cell(n - 1, m - 1)
  }

  function CellDist(d: Dist, P: seq<Point>, Q: seq<Point>, c: Cell): real
    requires c.i < |P| && c.j < |Q|
  {
    d(P[c.i], Q[c.j])
  }

  /** The leash length a walk needs: its largest point distance. */
  function Leash(d: Dist, P: seq<Point>, Q: seq<Point>, w: seq<Cell>): real
    requires |w| > 0 && InTable(w, |P|, |Q|)
  {
    if |w| == 1 then CellDist(d, P, Q, w[0])
    else Max(Leash(d, P, Q, w[..|w| - 1]), CellDist(d, P, Q, w[|w| - 1]))
  }

  lemma WalkPrefix(w: seq<Cell>, n: nat, m: nat)
    requires IsWalk(w, n, m) && |w| > 1
    ensures IsWalk(w[..|w| - 1], n, m)
  {
    var v := w[..|w| - 1];
    assert forall k :: 0 <= k < |v| ==> v[k] == w[k];
  }

  /** No walk ending at cell (i, j) has a shorter leash than the table value there. */
  lemma {:induction false} TableBelowEveryWalk(d: Dist, P: seq<Point>, Q: seq<Point>, w: seq<Cell>)
    requires IsWalk(w, |P|, |Q|)
    ensures Ca(d, P, Q, w[|w| - 1].i, w[|w| - 1].j) <= Leash(d, P, Q, w)
    decreases |w|
  {
    if |w| > 1 {
      var v := w[..|w| - 1];
      WalkPrefix(w, |P|, |Q|);
      TableBelowEveryWalk(d, P, Q, v);
      var a, b := v[|v| - 1], w[|w| - 1];
      assert a == w[|w| - 2];
      assert Step(a, b);
    }
  }

  lemma WalkExtend(w: seq<Cell>, c: Cell, n: nat, m: nat)
    requires IsWalk(w, n, m) && c.i < n && c.j < m && Step(w[|w| - 1], c)
    ensures IsWalk(w + [c], n, m)
    ensures (w + [c])[..|w|] == w
  {
  }

  /** The neighbour whose table value the recurrence takes at (i, j). */
  function BestPredecessor(d: Dist, P: seq<Point>, Q: seq<Point>, i: nat, j: nat): (c: Cell)
    requires i < |P| && j < |Q| && (i > 0 || j > 0)
    ensures c.i <= i && c.j <= j && Step(c, Cell(i, j))
    ensures Ca(d, P, Q, i, j) == Max(Ca(d, P, Q, c.i, c.j), d(P[i], Q[j]))
  {
    if i == 0 then Cell(0, j - 1)
    else if j == 0 then Cell(i - 1, 0)
    else
      var up, left, diag := Ca(d, P, Q, i - 1, j), Ca(d, P, Q, i, j - 1), Ca(d, P, Q, i - 1, j - 1);
      var m := Min3(up, left, diag);
      if m == up then Cell(i - 1, j) else if m == left then Cell(i, j - 1) else Cell(i - 1, j - 1)
  }

  lemma LeashSnoc(d: Dist, P: seq<Point>, Q: seq<Point>, v: seq<Cell>, c: Cell)
    requires |v| > 0 && InTable(v, |P|, |Q|) && c.i < |P| && c.j < |Q|
    ensures InTable(v + [c], |P|, |Q|)
    ensures Leash(d, P, Q, v + [c]) == Max(Leash(d, P, Q, v), CellDist(d, P, Q, c))
  {
    assert (v + [c])[..|v|] == v;
  }

  /** A walk to (i, j) whose leash is exactly the table value: the optimal coupling. */
  function BestWalk(d: Dist, P: seq<Point>, Q: seq<Point>, i: nat, j: nat): (w: seq<Cell>)
    requires i < |P| && j < |Q|
    ensures IsWalk(w, |P|, |Q|) && w[|w| - 1] == Cell(i, j)
    ensures Leash(d, P, Q, w) == Ca(d, P, Q, i, j)
    decreases i + j
  {
    if i == 0 && j == 0 then [Cell(0, 0)]
    else
      var prev := BestPredecessor(d, P, Q, i, j);
      var v := BestWalk(d, P, Q, prev.i, prev.j);
      WalkExtend(v, Cell(i, j), |P|, |Q|);
      LeashSnoc(d, P, Q, v, Cell(i, j));
      v + [Cell(i, j)]
  }

  /** The distance is a lower bound on the leash of every coupling... */
  lemma FrechetBelowEveryCoupling(d: Dist, P: seq<Point>, Q: seq<Point>, w: seq<Cell>)
    requires |P| > 0 && |Q| > 0
    requires IsCoupling(w, |P|, |Q|)
    ensures FrechetDistance(d, P, Q) <= Leash(d, P, Q, w)
  {
    TableBelowEveryWalk(d, P, Q, w);
  }

  /** ...and some coupling attains it, so it is the least leash over all couplings. */
  lemma FrechetAttained(d: Dist, P: seq<Point>, Q: seq<Point>)
    requires |P| > 0 && |Q| > 0
    ensures exists w :: IsCoupling(w, |P|, |Q|) && Leash(d, P, Q, w) == FrechetDistance(d, P, Q)
  {
    var w := BestWalk(d, P, Q, |P| - 1, |Q| - 1);
    assert IsCoupling(w, |P|, |Q|);
  }
}

=== FILE: curves.dfy ===
/**
 Curves as the analysis sees them: ordered (x, y) rows, with x the wavenumber
 and y the absorbance. Arithmetic is over `real`; IEEE rounding is not modelled.
 */
module Curves {

  type Point = (real, real)

  function Square(a: real): (r: real)
    ensures r >= 0.0
  {
    a * a
  }

  predicate Positive(x: real) {
    x > 0.0
  }

  /*
   The solver's arithmetic gives up when a product such as `e * e` meets
   linear facts about it, so the sign of a square is passed on through the
   boolean `Positive` rather than as an inequality.
   */
  lemma ProductZeroOrPositive(e: real)
    ensures e == 0.0 || Positive(e * e)
  {
  }

  lemma SquareIsProduct(e: real)
    ensures Square(e) == e * e
  {
  }

  /** A square is zero only at zero. */
  lemma SquareZeroOrPositive(e: real)
    ensures e == 0.0 || Positive(Square(e))
  {
    ProductZeroOrPositive(e);
    SquareIsProduct(e);
  }

  /** `(x1 - x2)**2 + (y1 - y2)**2` */
  function SqDist(p: Point, q: Point): (r: real)
    ensures r >= 0.0
    ensures p == q ==> r == 0.0
  {
    Square(p.0 - q.0) + Square(p.1 - q.1)
  }

  lemma SqDistSymmetric(p: Point, q: Point)
    ensures SqDist(p, q) == SqDist(q, p)
  {
  }

  /**
   `sqrt` behaves as the non-negative square root on non-negative arguments.
   The model takes `np.sqrt` as a parameter with this property, since Dafny's
   reals have no square root. `sqrt(0) == 0` follows from the first conjunct;
   it is listed because the solver does not derive it.
   */
  ghost predicate IsSqrt(sqrt: real -> real) {
    && (forall x :: 0.0 <= x ==> 0.0 <= sqrt(x) && sqrt(x) * sqrt(x) == x)
    && sqrt(0.0) == 0.0
  }

  /** The Euclidean distance `np.sqrt(dx**2 + dy**2)` / `np.linalg.norm(p - q)`. */
  function Euclid(sqrt: real -> real): (Point, Point) -> real {
    (p: Point, q: Point) => sqrt(SqDist(p, q))
  }

  /** The Euclidean distance is non-negative, symmetric and zero on equal points. */
  lemma EuclidIsDistance(sqrt: real -> real)
    requires IsSqrt(sqrt)
    ensures forall p: Point, q: Point :: Euclid(sqrt)(p, q) >= 0.0
    ensures forall p: Point, q: Point :: Euclid(sqrt)(p, q) == Euclid(sqrt)(q, p)
    ensures forall p: Point :: Euclid(sqrt)(p, p) == 0.0
  {
    forall p: Point, q: Point
      ensures Euclid(sqrt)(p, q) >= 0.0
      ensures Euclid(sqrt)(p, q) == Euclid(sqrt)(q, p)
    {
      SqDistSymmetric(p, q);
      var x := SqDist(p, q);
      assert Euclid(sqrt)(p, q) == sqrt(x);
    }
    forall p: Point ensures Euclid(sqrt)(p, p) == 0.0 {
      assert SqDist(p, p) == 0.0;
      assert Euclid(sqrt)(p, p) == sqrt(0.0);
    }
  }

  /** x values strictly increase along the curve: what `np.interp` demands of its sample. */
  ghost predicate XAscending(c: seq<Point>) {
    forall i, j :: 0 <= i < j < |c| ==> c[i].0 < c[j].0
  }
}

=== FILE: decimation.dfy ===
/**
 Stride decimation of a curve, as `df.iloc[::step]` with `step = len // cap`
 when the curve is longer than `cap`.
 */
module Decimation {

  /** Python's `s[::step]`: the elements at indices 0, step, 2*step, ... */
  function Stride<T>(s: seq<T>, step: nat): (r: seq<T>)
    requires step >= 1
    ensures |r| <= |s|
    ensures |s| > 0 ==> |r| > 0 && r[0] == s[0]
    decreases |s|
  {
    if |s| == 0 then []
    else if |s| <= step then [s[0]]
    else [s[0]] + Stride(s[step..], step)
  }

  lemma MulAtLeast(b: int, x: int)
    requires b > 0 && x >= 1
    ensures b * x >= b
  {
  }

  /** Euclidean division is determined by its bounds. */
  lemma DivBetween(a: int, b: int, q: int)
    requires b > 0 && b * q <= a < b * q + b
    ensures a / b == q
  {
    var d := a / b;
    assert a == b * d + a % b && 0 <= a % b < b;
    if d > q {
      MulAtLeast(b, d - q);
      assert false;
    } else if d < q {
      MulAtLeast(b, q - d);
      assert false;
    }
  }

  /** `s[::step]` holds ceil(|s| / step) elements. */
  lemma {:induction false} StrideLength<T>(s: seq<T>, step: nat)
    requires step >= 1
    ensures |Stride(s, step)| == (|s| + step - 1) / step
    decreases |s|
  {
    if |s| == 0 {
      DivBetween(step - 1, step, 0);
    } else if |s| <= step {
      DivBetween(|s| + step - 1, step, 1);
    } else {
      StrideLength(s[step..], step);
      assert |s[step..]| + step - 1 == |s| - 1;
      DivShift(|s| - 1, step);
    }
  }

  /** Adding the divisor adds one to the quotient. */
  lemma DivShift(a: int, b: int)
    requires a >= 0 && b > 0
    ensures (a + b) / b == a / b + 1
  {
    var q := a / b;
    assert b * q <= a < b * q + b by {
      assert a == b * q + a % b;
    }
    assert b * (q + 1) == b * q + b;
    DivBetween(a + b, b, q + 1);
  }

  /** Element k of `s[::step]` is element k * step of `s`. */
  lemma {:induction false} StrideElements<T>(s: seq<T>, step: nat)
    requires step >= 1
    ensures forall k :: 0 <= k < |Stride(s, step)| ==>
              k * step < |s| && Stride(s, step)[k] == s[k * step]
    decreases |s|
  {
    if |s| > step {
      StrideElements(s[step..], step);
      var r := Stride(s, step);
      forall k | 0 <= k < |r|
        ensures k * step < |s| && r[k] == s[k * step]
      {
        if k > 0 {
          assert k * step == (k - 1) * step + step;
        }
      }
    }
  }

  lemma {:induction false} StrideOne<T>(s: seq<T>)
    ensures Stride(s, 1) == s
    decreases |s|
  {
    if |s| > 1 {
      StrideOne(s[1..]);
    }
  }

  /**
   The decimation rule of `calculate_similarity_metrics`: a curve of at most
   `cap` rows is kept as is; a longer one keeps every (len // cap)-th row.
   */
  function Decimate<T>(s: seq<T>, cap: nat): seq<T>
    requires cap >= 1
  {
    if |s| <= cap then s else Stride(s, |s| / cap)
  }

  /**
   What decimation keeps: the whole curve when it fits, otherwise rows
   0, step, 2*step, ... in order, ceil(len / step) of them, with step >= 1.
   */
  lemma DecimateKeeps<T>(s: seq<T>, cap: nat)
    requires cap >= 1
    ensures |s| <= cap ==> Decimate(s, cap) == s
    ensures |s| > cap ==>
              var step := |s| / cap;
              && step >= 1
              && |Decimate(s, cap)| == (|s| + step - 1) / step
              && forall k :: 0 <= k < |Decimate(s, cap)| ==>
                   k * step < |s| && Decimate(s, cap)[k] == s[k * step]
  {
    if |s| > cap {
      var step := |s| / cap;
      DivBetween(|s|, cap, step);
      StrideLength(s, step);
      StrideElements(s, step);
    }
  }

  lemma MulNonNeg(a: int, b: int)
    requires a >= 0 && b >= 0
    ensures a * b >= 0
  {
  }

  lemma MulMono(b: int, x: int, y: int)
    requires b >= 0 && x <= y
    ensures b * x <= b * y
  {
    MulNonNeg(b, y - x);
    assert b * (y - x) == b * y - b * x;
  }

  /** A quotient is below any bound the dividend stays under, scaled by the divisor. */
  lemma DivBelow(a: int, b: int, m: int)
    requires b > 0 && 0 <= a < b * m
    ensures a / b < m
  {
    var q := a / b;
    assert b * q <= a by {
      assert a == b * q + a % b;
    }
    if q >= m {
      MulMono(b, m, q);
      assert false;
    }
  }

  /** `(c - 1) * (s - 1) >= 0`, expanded. */
  lemma ProductSlack(c: int, s: int)
    requires c >= 1 && s >= 1
    ensures c + s - 1 <= c * s
  {
    MulNonNeg(c - 1, s - 1);
    assert (c - 1) * (s - 1) == c * s - c - s + 1;
  }

  lemma QuotientPositive(a: int, b: int)
    requires b >= 1 && a >= b
    ensures a / b >= 1
  {
  }

  /** With step = len // cap, ceil(len / step) < 2 * cap. */
  lemma CeilBelowTwice(len: int, cap: int, step: int)
    requires cap >= 1 && len > cap && step == len / cap
    ensures step >= 1
    ensures (len + step - 1) / step < 2 * cap
  {
    var cs := cap * step;
    assert len == cs + len % cap && len % cap < cap;
    QuotientPositive(len, cap);
    ProductSlack(cap, step);
    assert step * (2 * cap) == cs + cs;
    DivBelow(len + step - 1, step, 2 * cap);
  }

  /**
   The kept count may exceed `cap` (9999 rows with cap 5000 keep all 9999) but
   always stays below twice the cap.
   */
  lemma DecimateBelowTwiceCap<T>(s: seq<T>, cap: nat)
    requires cap >= 1
    ensures |Decimate(s, cap)| < 2 * cap
  {
    if |s| > cap {
      CeilBelowTwice(|s|, cap, |s| / cap);
      StrideLength(s, |s| / cap);
    }
  }

  /** Decimating twice with the same cap is the same as decimating once. */
  lemma DecimateIdempotent<T>(s: seq<T>, cap: nat)
    requires cap >= 1
    ensures Decimate(Decimate(s, cap), cap) == Decimate(s, cap)
  {
    var r := Decimate(s, cap);
    if |r| > cap {
      DecimateBelowTwiceCap(s, cap);
      DivBetween(|r|, cap, 1);
      StrideOne(r);
    }
  }

  /** Decimation keeps the first row, and every row it keeps is a row of the input. */
  lemma DecimateSubsequence<T>(s: seq<T>, cap: nat)
    requires cap >= 1
    ensures |s| > 0 ==> |Decimate(s, cap)| > 0 && Decimate(s, cap)[0] == s[0]
    ensures forall x :: x in Decimate(s, cap) ==> x in s
  {
    DecimateKeeps(s, cap);
  }

  /** Decimating 9999 rows with cap 5000 keeps all of them. */
  lemma DecimateMayExceedCap<T>(s: seq<T>)
    requires |s| == 9999
    ensures Decimate(s, 5000) == s
  {
    StrideOne(s);
  }

  /** Decimating 10000 rows with cap 5000 keeps the 5000 even-indexed rows. */
  lemma DecimateEvenSplit<T>(s: seq<T>)
    requires |s| == 10000
    ensures |Decimate(s, 5000)| == 5000
    ensures forall k :: 0 <= k < 5000 ==> Decimate(s, 5000)[k] == s[2 * k]
  {
    DecimateKeeps(s, 5000);
  }
}

=== FILE: export.dfy ===
/**
 The export step of `generate_graphs`: each URL path returned by
 `generate_and_save` is mapped back to a file under `SAVE_DIR`, and every
 file that exists goes into the archive under its bare file name.
 */
module Export {
  import opened Wrappers
  import opened PyStr
  import opened PosixPath
  import opened Plotter

  /**
   The file a URL path stands for. A path with the static prefix has every
   occurrence of the prefix text removed (`str.replace`, not a prefix strip);
   any other path keeps only its basename.
   */
  function ResolveSavedPath(saveDir: string, rel: string): string {
    if StartsWith(rel, StaticPrefix) then Join(saveDir, ReplaceAll(rel, StaticPrefix, ""))
    else Join(saveDir, Basename(rel))
  }

  /** Removing a leading pattern that does not recur leaves exactly the rest. */
  lemma ReplaceLeadingOnly(s: string, pat: string)
    requires |pat| > 0 && StartsWith(s, pat)
    requires !Contains(s[|pat|..], pat)
    ensures ReplaceAll(s, pat, "") == s[|pat|..]
  {
    ReplaceAbsent(s[|pat|..], pat, "");
  }

  /** The static prefix holds two slashes seven characters apart. */
  lemma PrefixSlashes()
    ensures |StaticPrefix| == 25 && StaticPrefix[0] == '/' && StaticPrefix[7] == '/'
  {
  }

  /** A text with at most one slash cannot hold the static prefix. */
  lemma OneSlashNoPrefix(s: string, at: int)
    requires forall k :: 0 <= k < |s| && s[k] == '/' ==> k == at
    ensures !Contains(s, StaticPrefix)
  {
    PrefixSlashes();
  }

  /** A path without the static prefix resolves to a file that carries the path's basename. */
  lemma ResolveOtherPath(saveDir: string, rel: string)
    requires !StartsWith(rel, StaticPrefix)
    ensures Basename(rel) != "" ==> ResolveSavedPath(saveDir, rel) == Lead(saveDir) + Basename(rel)
    ensures Basename(rel) != "" && saveDir != "" && saveDir[|saveDir| - 1] != '/' ==>
              ResolveSavedPath(saveDir, rel) == saveDir + "/" + Basename(rel)
    ensures Basename(rel) != "" ==> Basename(ResolveSavedPath(saveDir, rel)) == Basename(rel)
    ensures Basename(rel) == "" ==> ResolveSavedPath(saveDir, rel) == Lead(saveDir)
  {
    var b := Basename(rel);
    assert ResolveSavedPath(saveDir, rel) == Join(saveDir, b);
    JoinPlainName(saveDir, b);
  }

  /** Joining a name without `/` puts it directly under the directory; the empty name gives the directory's lead. */
  lemma JoinPlainName(dir: string, b: string)
    requires '/' !in b
    ensures Join(dir, b) == Lead(dir) + b
    ensures b != "" ==> Basename(Join(dir, b)) == b
  {
    assert !StartsWith(b, "/") by {
      if |b| > 0 { assert b[0] != '/'; }
    }
    if b != "" {
      BasenameOfJoin(dir, b);
    }
  }

  /** A prefixed path whose rest holds no further prefix resolves to `SAVE_DIR` joined with that rest. */
  lemma ResolvePrefixedPath(saveDir: string, rest: string)
    requires !Contains(rest, StaticPrefix)
    ensures ResolveSavedPath(saveDir, StaticPrefix + rest) == Join(saveDir, rest)
  {
    var rel := StaticPrefix + rest;
    assert rel[..|StaticPrefix|] == StaticPrefix;
    assert rel[|StaticPrefix|..] == rest;
    ReplaceLeadingOnly(rel, StaticPrefix);
  }

  lemma ReplaceDropsLeading(pat: string, s: string)
    requires |pat| > 0
    ensures ReplaceAll(pat + s, pat, "") == ReplaceAll(s, pat, "")
  {
    assert (pat + s)[..|pat|] == pat;
    assert (pat + s)[|pat|..] == s;
  }

  lemma ReplaceKeepsLeading(c: char, s: string, pat: string)
    requires |pat| > 0 && c != pat[0]
    ensures ReplaceAll([c] + s, pat, "") == [c] + ReplaceAll(s, pat, "")
  {
    var t := [c] + s;
    assert t[1..] == s;
    if |t| >= |pat| {
      assert t[..|pat|][0] == c;
    }
  }

  /** A stretch without the pattern's first character is copied through. */
  lemma {:induction false} ReplaceSkipsPlain(a: string, t: string, pat: string)
    requires |pat| > 0 && pat[0] !in a
    ensures ReplaceAll(a + t, pat, "") == a + ReplaceAll(t, pat, "")
    decreases |a|
  {
    if |a| > 0 {
      ReplaceKeepsLeading(a[0], a[1..] + t, pat);
      ReplaceSkipsPlain(a[1..], t, pat);
      assert a + t == [a[0]] + (a[1..] + t);
      assert a == [a[0]] + a[1..];
    } else {
      assert a + t == t;
    }
  }

  /**
   Every occurrence of the prefix goes, not only the leading one:
   `/static/generated_graphs/a/static/generated_graphs/b` resolves to `SAVE_DIR/ab`.
   */
  lemma ResolveRemovesInnerPrefix(saveDir: string, a: string, b: string)
    requires '/' !in a && '/' !in b
    ensures ResolveSavedPath(saveDir, StaticPrefix + a + StaticPrefix + b) == Join(saveDir, a + b)
  {
    PrefixSlashes();
    var rel := StaticPrefix + (a + (StaticPrefix + b));
    assert StaticPrefix + a + StaticPrefix + b == rel;
    assert StartsWith(rel, StaticPrefix) by { assert rel[..25] == StaticPrefix; }
    ReplaceDropsLeading(StaticPrefix, a + (StaticPrefix + b));
    ReplaceSkipsPlain(a, StaticPrefix + b, StaticPrefix);
    ReplaceDropsLeading(StaticPrefix, b);
    OneSlashNoPrefix(b, -1);
    ReplaceAbsent(b, StaticPrefix, "");
  }

  /** `os.path.join(os.path.join(a, b), c)` is `os.path.join(a, b + "/" + c)` for plain names `b` and `c`. */
  lemma JoinNested(a: string, b: string, c: string)
    requires b != "" && '/' !in b && c != "" && c[0] != '/'
    ensures Join(Join(a, b), c) == Join(a, b + "/" + c)
  {
    var bc := b + "/" + c;
    JoinRelative(a, b);
    JoinRelative(a, bc);
    var j := Join(a, b);
    assert j[|j| - 1] == b[|b| - 1];
    JoinRelative(j, c);
    assert (Lead(a) + b) + "/" + c == Lead(a) + bc;
  }

  /** What `os.path.join` puts in front of a relative name: the directory, with a `/` unless it ends in one. */
  function Lead(a: string): string {
    if a == "" || a[|a| - 1] == '/' then a else a + "/"
  }

  lemma JoinRelative(a: string, b: string)
    requires b != "" && b[0] != '/'
    ensures Join(a, b) == Lead(a) + b
  {
    assert !StartsWith(b, "/");
  }

  /** The output name of a sample without `/`: non-empty, no `/`, not starting with `/`. */
  lemma OutNamePlain(filename: string, ext: string)
    requires '/' !in filename && '/' !in ext
    ensures OutName(filename, ext) != "" && '/' !in OutName(filename, ext)
  {
    var outName := OutName(filename, ext);
    assert outName[|outName| - |ext| - 1] == '.';
  }

  /** Default directory: `/static/generated_graphs/<out_name>` resolves to `SAVE_DIR/<out_name>`. */
  lemma ResolveDefaultDir(saveDir: string, outName: string)
    requires '/' !in outName
    ensures ResolveSavedPath(saveDir, StaticPrefix + outName) == Join(saveDir, outName)
  {
    OneSlashNoPrefix(outName, -1);
    ResolvePrefixedPath(saveDir, outName);
  }

  /** Subdirectory: `/static/generated_graphs/<safe>/<out_name>` resolves to `SAVE_DIR/<safe>/<out_name>`. */
  lemma ResolveSubdir(saveDir: string, safe: string, outName: string)
    requires safe != "" && '/' !in safe && outName != "" && '/' !in outName
    ensures ResolveSavedPath(saveDir, StaticPrefix + safe + "/" + outName) == Join(Join(saveDir, safe), outName)
  {
    var rest := safe + "/" + outName;
    assert forall k :: 0 <= k < |rest| && rest[k] == '/' ==> k == |safe|;
    OneSlashNoPrefix(rest, |safe|);
    assert StaticPrefix + safe + "/" + outName == StaticPrefix + rest;
    ResolvePrefixedPath(saveDir, rest);
    JoinNested(saveDir, safe, outName);
  }

  /**
   The round trip between the two files: for a sample name without `/`, the
   URL path `generate_and_save` returns resolves to the very file it wrote.
   */
  lemma ResolveRelPathIsOutPath(saveDir: string, saveSubdir: Option<string>, filename: string, format: string)
    requires '/' !in filename
    ensures ResolveSavedPath(saveDir, RelPath(saveDir, saveSubdir, filename, format))
              == OutPath(saveDir, saveSubdir, filename, format)
  {
    var outName := OutName(filename, FileExtension(format));
    OutNamePlain(filename, FileExtension(format));
    RelPathShape(saveDir, saveSubdir, filename, format);
    TargetDirShape(saveDir, saveSubdir);
    if SafeSubdir(saveSubdir).Some? {
      ResolveSubdir(saveDir, SafeSubdir(saveSubdir).value, outName);
    } else {
      ResolveDefaultDir(saveDir, outName);
    }
  }

  /**
   The round trip needs a sample name without `/`. For a sample named
   `x/static/generated_graphs/y` the plotter's output path is
   `SAVE_DIR/x/static/generated_graphs/y.png`, but its URL path loses the
   inner prefix text and resolves to `SAVE_DIR/xy.png`. The lemma states this
   for every such name `a + prefix + b` with dot-free, slash-free parts. The
   plotter creates no directory below the sanitised subdirectory, so unless
   `SAVE_DIR/a/static/generated_graphs` already exists, saving the image fails
   and the request answers 400 before any URL path is returned.
   */
  lemma SlashedNameMissesFile(saveDir: string, a: string, b: string)
    requires a != "" && '/' !in a && '.' !in a && '/' !in b && '.' !in b
    ensures var filename := a + StaticPrefix + b;
            && OutPath(saveDir, None, filename, "png") == Join(saveDir, filename + ".png")
            && ResolveSavedPath(saveDir, RelPath(saveDir, None, filename, "png")) == Join(saveDir, a + b + ".png")
            && ResolveSavedPath(saveDir, RelPath(saveDir, None, filename, "png")) != OutPath(saveDir, None, filename, "png")
  {
    var filename := a + StaticPrefix + b;
    var outName := filename + ".png";
    NoDotConcat(a, b);
    NoDotOutName(filename, "png");
    PngExtension();
    DefaultDirPaths(saveDir, filename, "png");
    var rel := RelPath(saveDir, None, filename, "png");
    assert rel == StaticPrefix + outName;
    Regroup(StaticPrefix, a, b, ".png");
    ResolveRemovesInnerPrefix(saveDir, a, b + ".png");
    assert a + (b + ".png") == a + b + ".png";
    assert outName[0] == a[0];
    JoinLonger(saveDir, a + b + ".png", outName);
  }

  lemma Regroup<T>(p: seq<T>, a: seq<T>, b: seq<T>, e: seq<T>)
    ensures p + ((a + p + b) + e) == p + a + p + (b + e)
  {
  }

  lemma NoDotConcat(a: string, b: string)
    requires '.' !in a && '.' !in b
    ensures '.' !in a + StaticPrefix + b
  {
    assert '.' !in StaticPrefix;
  }

  /** Without a subdirectory the file goes straight into `SAVE_DIR` and the URL is prefix plus output name. */
  lemma DefaultDirPaths(saveDir: string, filename: string, format: string)
    ensures OutPath(saveDir, None, filename, format) == Join(saveDir, OutName(filename, FileExtension(format)))
    ensures RelPath(saveDir, None, filename, format) == StaticPrefix + OutName(filename, FileExtension(format))
  {
    assert TargetDir(saveDir, None) == saveDir;
  }

  lemma PngExtension()
    ensures FileExtension("png") == "png"
  {
    assert Lower("png") == "png";
  }

  /** A name without any dot has no extension, so the output name appends one. */
  lemma NoDotOutName(filename: string, ext: string)
    requires '.' !in filename
    ensures OutName(filename, ext) == filename + "." + ext
  {
    assert RFind(filename, '.') == -1;
  }

  /** Joining two relative names of different lengths onto one directory gives different paths. */
  lemma JoinLonger(dir: string, b: string, c: string)
    requires b != "" && b[0] != '/' && c != "" && c[0] != '/' && |b| < |c|
    ensures Join(dir, b) != Join(dir, c)
  {
    assert !StartsWith(b, "/") && !StartsWith(c, "/");
  }

  /** One archive member: the file read and the name it is stored under. */
  datatype ArchiveEntry = ArchiveEntry(file: string, name: string)

  /** The file each URL path stands for, in order. */
  function ResolveAll(saveDir: string, rels: seq<string>): (files: seq<string>)
    ensures |files| == |rels|
    ensures forall k :: 0 <= k < |rels| ==> files[k] == ResolveSavedPath(saveDir, rels[k])
  {
    if |rels| == 0 then [] else [ResolveSavedPath(saveDir, rels[0])] + ResolveAll(saveDir, rels[1..])
  }

  /**
   The loop's zip members for a list of files: a file that does not exist (per
   `existing`, standing for `os.path.exists`) is skipped, and every other one
   is stored under its basename.
   */
  function Archive(files: seq<string>, existing: set<string>): (entries: seq<ArchiveEntry>)
    ensures |entries| <= |files|
    ensures forall e :: e in entries ==> e.file in existing && e.name == Basename(e.file) && '/' !in e.name
  {
    if |files| == 0 then []
    else
      var rest := Archive(files[1..], existing);
      if files[0] in existing then [ArchiveEntry(files[0], Basename(files[0]))] + rest else rest
  }

  lemma {:induction false} ArchiveComplete(files: seq<string>, existing: set<string>)
    ensures forall k :: 0 <= k < |files| && files[k] in existing ==>
              ArchiveEntry(files[k], Basename(files[k])) in Archive(files, existing)
    ensures forall e :: e in Archive(files, existing) ==> e.file in files
  {
    if |files| > 0 {
      ArchiveComplete(files[1..], existing);
      assert forall k :: 0 < k < |files| ==> files[k] == files[1..][k - 1];
    }
  }

  /** The archive of one file: its entry when the file exists, nothing otherwise. */
  lemma ArchiveSingle(f: string, existing: set<string>)
    ensures Archive([f], existing) == if f in existing then [ArchiveEntry(f, Basename(f))] else []
  {
    assert [f][1..] == [];
  }

  /** The loop visits the files in order, so the archive of a concatenation is the concatenation of the archives. */
  lemma {:induction false} ArchiveConcat(a: seq<string>, b: seq<string>, existing: set<string>)
    ensures Archive(a + b, existing) == Archive(a, existing) + Archive(b, existing)
    decreases |a|
  {
    if |a| == 0 {
      assert a + b == b;
    } else {
      assert (a + b)[0] == a[0];
      assert (a + b)[1..] == a[1..] + b;
      ArchiveConcat(a[1..], b, existing);
    }
  }

  lemma {:induction false} ArchiveAllExist(files: seq<string>, existing: set<string>)
    requires forall k :: 0 <= k < |files| ==> files[k] in existing
    ensures |Archive(files, existing)| == |files|
    ensures forall k :: 0 <= k < |files| ==> Archive(files, existing)[k] == ArchiveEntry(files[k], Basename(files[k]))
  {
    if |files| > 0 {
      assert forall k :: 0 < k < |files| ==> files[k] == files[1..][k - 1];
      ArchiveAllExist(files[1..], existing);
    }
  }

  /** The archive's members, in the order of the URL paths. */
  function ArchiveEntries(saveDir: string, rels: seq<string>, existing: set<string>): (entries: seq<ArchiveEntry>)
    ensures |entries| <= |rels|
    ensures forall e :: e in entries ==> e.file in existing && e.name == Basename(e.file) && '/' !in e.name
  {
    Archive(ResolveAll(saveDir, rels), existing)
  }

  /** A path's file is archived exactly when it exists. */
  lemma ArchiveEntriesComplete(saveDir: string, rels: seq<string>, existing: set<string>)
    ensures forall k :: 0 <= k < |rels| && ResolveSavedPath(saveDir, rels[k]) in existing ==>
              ArchiveEntry(ResolveSavedPath(saveDir, rels[k]), Basename(ResolveSavedPath(saveDir, rels[k])))
                in ArchiveEntries(saveDir, rels, existing)
    ensures forall e :: e in ArchiveEntries(saveDir, rels, existing) ==>
              exists k :: 0 <= k < |rels| && e.file == ResolveSavedPath(saveDir, rels[k])
  {
    var files := ResolveAll(saveDir, rels);
    ArchiveComplete(files, existing);
    forall e | e in Archive(files, existing)
      ensures exists k :: 0 <= k < |rels| && e.file == ResolveSavedPath(saveDir, rels[k])
    {
      var k :| 0 <= k < |files| && files[k] == e.file;
    }
  }

  lemma ResolveAllConcat(saveDir: string, a: seq<string>, b: seq<string>)
    ensures ResolveAll(saveDir, a + b) == ResolveAll(saveDir, a) + ResolveAll(saveDir, b)
  {
    var l, r := ResolveAll(saveDir, a + b), ResolveAll(saveDir, a) + ResolveAll(saveDir, b);
    assert forall k :: 0 <= k < |l| ==> l[k] == r[k] by {
      forall k | 0 <= k < |l|
        ensures l[k] == r[k]
      {
        if k < |a| {
          assert (a + b)[k] == a[k];
        } else {
          assert (a + b)[k] == b[k - |a|];
        }
      }
    }
  }

  /**
   The archive follows the order of `saved_paths`: the entries of a list of
   URL paths are those of its first part followed by those of the rest, and a
   single path contributes its file exactly when the file exists.
   */
  lemma ArchiveEntriesInOrder(saveDir: string, a: seq<string>, b: seq<string>, existing: set<string>)
    ensures ArchiveEntries(saveDir, a + b, existing) == ArchiveEntries(saveDir, a, existing) + ArchiveEntries(saveDir, b, existing)
  {
    ResolveAllConcat(saveDir, a, b);
    ArchiveConcat(ResolveAll(saveDir, a), ResolveAll(saveDir, b), existing);
  }

  lemma ArchiveEntriesOfOne(saveDir: string, rel: string, existing: set<string>)
    ensures var f := ResolveSavedPath(saveDir, rel);
            ArchiveEntries(saveDir, [rel], existing) == if f in existing then [ArchiveEntry(f, Basename(f))] else []
  {
    assert ResolveAll(saveDir, [rel]) == [ResolveSavedPath(saveDir, rel)];
    ArchiveSingle(ResolveSavedPath(saveDir, rel), existing);
  }

  /** When every file exists nothing is skipped, and the order is kept. */
  lemma ArchiveEntriesAllExist(saveDir: string, rels: seq<string>, existing: set<string>)
    requires forall k :: 0 <= k < |rels| ==> ResolveSavedPath(saveDir, rels[k]) in existing
    ensures |ArchiveEntries(saveDir, rels, existing)| == |rels|
    ensures forall k :: 0 <= k < |rels| ==>
              ArchiveEntries(saveDir, rels, existing)[k].file == ResolveSavedPath(saveDir, rels[k])
  {
    ArchiveAllExist(ResolveAll(saveDir, rels), existing);
  }

  lemma OneGraphArchived(saveDir: string, saveSubdir: Option<string>, filename: string, format: string)
    requires '/' !in filename
    ensures ResolveSavedPath(saveDir, RelPath(saveDir, saveSubdir, filename, format)) == OutPath(saveDir, saveSubdir, filename, format)
    ensures Basename(OutPath(saveDir, saveSubdir, filename, format)) == OutName(filename, FileExtension(format))
  {
    ResolveRelPathIsOutPath(saveDir, saveSubdir, filename, format);
    BasenameOfOutPath(TargetDir(saveDir, saveSubdir), filename, FileExtension(format));
  }

  lemma BasenameOfOutPath(target: string, filename: string, ext: string)
    requires '/' !in filename && '/' !in ext
    ensures Basename(Join(target, OutName(filename, ext))) == OutName(filename, ext)
  {
    OutNamePlain(filename, ext);
    BasenameOfJoin(target, OutName(filename, ext));
  }

  /**
   Across both files: once every graph of a run has been written, the archive
   holds exactly the written files, one member per sample, in order, each
   stored under its output name.
   */
  lemma ExportArchivesEveryGraph(saveDir: string, filenames: seq<string>, saveSubdir: Option<string>, format: string, existing: set<string>)
    requires forall k :: 0 <= k < |filenames| ==> '/' !in filenames[k]
    requires forall k :: 0 <= k < |filenames| ==> SavedFiles(saveDir, filenames, saveSubdir, format)[k] in existing
    ensures var entries := ArchiveEntries(saveDir, GenerateAndSave(saveDir, filenames, saveSubdir, format), existing);
            var written := SavedFiles(saveDir, filenames, saveSubdir, format);
            && |entries| == |written|
            && forall k :: 0 <= k < |written| ==>
                 && entries[k].file == written[k]
                 && entries[k].name == OutName(filenames[k], FileExtension(format))
  {
    var rels := GenerateAndSave(saveDir, filenames, saveSubdir, format);
    var files := ResolveAll(saveDir, rels);
    var written := SavedFiles(saveDir, filenames, saveSubdir, format);
    forall k | 0 <= k < |filenames|
      ensures files[k] == written[k]
      ensures Basename(files[k]) == OutName(filenames[k], FileExtension(format))
    {
      OneGraphArchived(saveDir, saveSubdir, filenames[k], format);
    }
    ArchiveAllExist(files, existing);
  }
}

=== FILE: frechet.dfy ===
/**
 The discrete Fréchet distance of Eiter and Mannila, as the coupling table
 `ca` of `_frechet_distance_numba` and its NumPy twin fill it. The recurrence
 is stated for any point distance `d`; the analysis uses the Euclidean one.
 */
module Frechet {
  import opened Curves

  type Dist = (Point, Point) -> real

  function Max(a: real, b: real): (r: real)
    ensures r >= a && r >= b
    ensures r == a || r == b
  {
    if a >= b then a else b
  }

  function Min3(a: real, b: real, c: real): (r: real)
    ensures r <= a && r <= b && r <= c
    ensures r == a || r == b || r == c
  {
    if a <= b && a <= c then a else if b <= c then b else c
  }

  /** Cell (i, j) of the coupling table. */
  function Ca(d: Dist, P: seq<Point>, Q: seq<Point>, i: nat, j: nat): real
    requires i < |P| && j < |Q|
    decreases i + j
  {
    if i == 0 && j == 0 then d(P[0], Q[0])
    else if i == 0 then Max(Ca(d, P, Q, 0, j - 1), d(P[0], Q[j]))
    else if j == 0 then Max(Ca(d, P, Q, i - 1, 0), d(P[i], Q[0]))
    else Max(Min3(Ca(d, P, Q, i - 1, j), Ca(d, P, Q, i, j - 1), Ca(d, P, Q, i - 1, j - 1)),
             d(P[i], Q[j]))
  }

  /** `ca[n-1, m-1]` */
  function FrechetDistance(d: Dist, P: seq<Point>, Q: seq<Point>): real
    requires |P| > 0 && |Q| > 0
  {
    Ca(d, P, Q, |P| - 1, |Q| - 1)
  }

  ghost predicate NonNegative(d: Dist) {
    forall p, q :: d(p, q) >= 0.0
  }

  ghost predicate Symmetric(d: Dist) {
    forall p, q :: d(p, q) == d(q, p)
  }

  ghost predicate ZeroOnSelf(d: Dist) {
    forall p :: d(p, p) == 0.0
  }

  /** The largest element of a non-empty sequence. */
  function MaxOf(xs: seq<real>): (r: real)
    requires |xs| > 0
    ensures forall k :: 0 <= k < |xs| ==> xs[k] <= r
    ensures exists k :: 0 <= k < |xs| && xs[k] == r
  {
    if |xs| == 1 then xs[0]
    else
      var r := Max(MaxOf(xs[..|xs| - 1]), xs[|xs| - 1]);
      assert forall k :: 0 <= k < |xs| - 1 ==> xs[..|xs| - 1][k] == xs[k];
      r
  }

  /** Distances from `p` to each point of `Q`. */
  function DistancesFrom(d: Dist, p: Point, Q: seq<Point>): (r: seq<real>)
    ensures |r| == |Q|
    ensures forall k :: 0 <= k < |Q| ==> r[k] == d(p, Q[k])
  {
    seq(|Q|, k requires 0 <= k < |Q| => d(p, Q[k]))
  }

  /** Distances from each point of `P` to `q`. */
  function DistancesTo(d: Dist, P: seq<Point>, q: Point): (r: seq<real>)
    ensures |r| == |P|
    ensures forall k :: 0 <= k < |P| ==> r[k] == d(P[k], q)
  {
    seq(|P|, k requires 0 <= k < |P| => d(P[k], q))
  }

  /** The first row is the running maximum of the distances from p0. */
  lemma {:induction false} FirstRowIsRunningMax(d: Dist, P: seq<Point>, Q: seq<Point>, j: nat)
    requires |P| > 0 && j < |Q|
    ensures Ca(d, P, Q, 0, j) == MaxOf(DistancesFrom(d, P[0], Q)[..j + 1])
    decreases j
  {
    var row := DistancesFrom(d, P[0], Q);
    if j > 0 {
      FirstRowIsRunningMax(d, P, Q, j - 1);
      assert row[..j + 1][..j] == row[..j];
    }
  }

  /** The first column is the running maximum of the distances to q0. */
  lemma {:induction false} FirstColumnIsRunningMax(d: Dist, P: seq<Point>, Q: seq<Point>, i: nat)
    requires i < |P| && |Q| > 0
    ensures Ca(d, P, Q, i, 0) == MaxOf(DistancesTo(d, P, Q[0])[..i + 1])
    decreases i
  {
    var col := DistancesTo(d, P, Q[0]);
    if i > 0 {
      FirstColumnIsRunningMax(d, P, Q, i - 1);
      assert col[..i + 1][..i] == col[..i];
    }
  }

  /** Along the first row and the first column the table never decreases. */
  lemma {:induction false} BoundaryNonDecreasing(d: Dist, P: seq<Point>, Q: seq<Point>, a: nat, b: nat)
    requires |P| > 0 && |Q| > 0 && a <= b
    ensures b < |Q| ==> Ca(d, P, Q, 0, a) <= Ca(d, P, Q, 0, b)
    ensures b < |P| ==> Ca(d, P, Q, a, 0) <= Ca(d, P, Q, b, 0)
    decreases b - a
  {
    if a < b {
      BoundaryNonDecreasing(d, P, Q, a, b - 1);
    }
  }

  /** If either curve is a single point, the distance is the largest point-to-point distance. */
  lemma SinglePointCurve(d: Dist, P: seq<Point>, Q: seq<Point>)
    requires |P| > 0 && |Q| > 0
    ensures |P| == 1 ==> FrechetDistance(d, P, Q) == MaxOf(DistancesFrom(d, P[0], Q))
    ensures |Q| == 1 ==> FrechetDistance(d, P, Q) == MaxOf(DistancesTo(d, P, Q[0]))
  {
    if |P| == 1 {
      FirstRowIsRunningMax(d, P, Q, |Q| - 1);
      assert DistancesFrom(d, P[0], Q)[..|Q|] == DistancesFrom(d, P[0], Q);
    }
    if |Q| == 1 {
      FirstColumnIsRunningMax(d, P, Q, |P| - 1);
      assert DistancesTo(d, P, Q[0])[..|P|] == DistancesTo(d, P, Q[0]);
    }
  }

  /** Every cell is at least its own point distance and at least the corner cell. */
  lemma {:induction false} CellLowerBounds(d: Dist, P: seq<Point>, Q: seq<Point>, i: nat, j: nat)
    requires i < |P| && j < |Q|
    ensures Ca(d, P, Q, i, j) >= d(P[i], Q[j])
    ensures Ca(d, P, Q, i, j) >= d(P[0], Q[0])
    decreases i + j
  {
    if i == 0 && j == 0 {
    } else if i == 0 {
      CellLowerBounds(d, P, Q, 0, j - 1);
    } else if j == 0 {
      CellLowerBounds(d, P, Q, i - 1, 0);
    } else {
      CellLowerBounds(d, P, Q, i - 1, j);
      CellLowerBounds(d, P, Q, i, j - 1);
      CellLowerBounds(d, P, Q, i - 1, j - 1);
    }
  }

  /** The distance is at least the distance of the first points and of the last points. */
  lemma FrechetAtLeastEndpoints(d: Dist, P: seq<Point>, Q: seq<Point>)
    requires |P| > 0 && |Q| > 0
    ensures FrechetDistance(d, P, Q) >= d(P[0], Q[0])
    ensures FrechetDistance(d, P, Q) >= d(P[|P| - 1], Q[|Q| - 1])
  {
    CellLowerBounds(d, P, Q, |P| - 1, |Q| - 1);
  }

  lemma {:induction false} CellNonNegative(d: Dist, P: seq<Point>, Q: seq<Point>, i: nat, j: nat)
    requires NonNegative(d)
    requires i < |P| && j < |Q|
    ensures Ca(d, P, Q, i, j) >= 0.0
  {
    CellLowerBounds(d, P, Q, i, j);
  }

  /** Swapping the curves transposes the table. */
  lemma {:induction false} CaTranspose(d: Dist, P: seq<Point>, Q: seq<Point>, i: nat, j: nat)
    requires Symmetric(d)
    requires i < |P| && j < |Q|
    ensures Ca(d, P, Q, i, j) == Ca(d, Q, P, j, i)
    decreases i + j
  {
    assert d(P[i], Q[j]) == d(Q[j], P[i]);
    if i == 0 && j == 0 {
    } else if i == 0 {
      CaTranspose(d, P, Q, 0, j - 1);
    } else if j == 0 {
      CaTranspose(d, P, Q, i - 1, 0);
    } else {
      CaTranspose(d, P, Q, i - 1, j);
      CaTranspose(d, P, Q, i, j - 1);
      CaTranspose(d, P, Q, i - 1, j - 1);
      Min3Swap(Ca(d, P, Q, i - 1, j), Ca(d, P, Q, i, j - 1), Ca(d, P, Q, i - 1, j - 1));
    }
  }

  lemma Min3Swap(a: real, b: real, c: real)
    ensures Min3(a, b, c) == Min3(b, a, c)
  {
  }

  /** For a symmetric point distance, the order of the curves does not matter. */
  lemma FrechetSymmetric(d: Dist, P: seq<Point>, Q: seq<Point>)
    requires Symmetric(d)
    requires |P| > 0 && |Q| > 0
    ensures FrechetDistance(d, P, Q) == FrechetDistance(d, Q, P)
  {
    CaTranspose(d, P, Q, |P| - 1, |Q| - 1);
  }

  lemma {:induction false} DiagonalZero(d: Dist, P: seq<Point>, i: nat)
    requires NonNegative(d) && ZeroOnSelf(d)
    requires i < |P|
    ensures Ca(d, P, P, i, i) == 0.0
    decreases i
  {
    if i > 0 {
      DiagonalZero(d, P, i - 1);
      CellNonNegative(d, P, P, i - 1, i);
      CellNonNegative(d, P, P, i, i - 1);
    }
  }

  /** A curve is at distance 0 from itself. */
  lemma FrechetSelfZero(d: Dist, P: seq<Point>)
    requires NonNegative(d) && ZeroOnSelf(d)
    requires |P| > 0
    ensures FrechetDistance(d, P, P) == 0.0
  {
    DiagonalZero(d, P, |P| - 1);
  }
}

=== FILE: frechet_table.dfy ===
/**
 The iterative computation: an n x m table filled first along row 0, then
 column 0, then row by row, exactly in the loop order of
 `_frechet_distance_numba` and of the NumPy fallback.
 */
module FrechetTable {
  import opened Curves
  import opened Frechet

  method ComputeFrechet(d: Dist, P: seq<Point>, Q: seq<Point>) returns (r: real)
    requires |P| > 0 && |Q| > 0
    ensures r == FrechetDistance(d, P, Q)
  {
    var n, m := |P|, |Q|;
    var ca := new real[n, m];
    ca[0, 0] := d(P[0], Q[0]);

    var j := 1;
    while j < m
      invariant 1 <= j <= m
      invariant forall b {:trigger ca[0, b]} :: 0 <= b < j ==> ca[0, b] == Ca(d, P, Q, 0, b)
    {
      ca[0, j] := Max(ca[0, j - 1], d(P[0], Q[j]));
      j := j + 1;
    }

    var i := 1;
    while i < n
      invariant 1 <= i <= n
      invariant forall b {:trigger ca[0, b]} :: 0 <= b < m ==> ca[0, b] == Ca(d, P, Q, 0, b)
      invariant forall a {:trigger ca[a, 0]} :: 0 <= a < i ==> ca[a, 0] == Ca(d, P, Q, a, 0)
    {
      ca[i, 0] := Max(ca[i - 1, 0], d(P[i], Q[0]));
      i := i + 1;
    }

    i := 1;
    while i < n
      invariant 1 <= i <= n
      invariant forall a, b {:trigger ca[a, b]} :: 0 <= a < i && 0 <= b < m ==> ca[a, b] == Ca(d, P, Q, a, b)
      invariant forall a {:trigger ca[a, 0]} :: i <= a < n ==> ca[a, 0] == Ca(d, P, Q, a, 0)
    {
      j := 1;
      while j < m
        invariant 1 <= j <= m
        invariant forall a, b {:trigger ca[a, b]} :: 0 <= a < i && 0 <= b < m ==> ca[a, b] == Ca(d, P, Q, a, b)
        invariant forall b {:trigger ca[i, b]} :: 0 <= b < j ==> ca[i, b] == Ca(d, P, Q, i, b)
        invariant forall a {:trigger ca[a, 0]} :: i < a < n ==> ca[a, 0] == Ca(d, P, Q, a, 0)
      {
        var up, left, diag := ca[i - 1, j], ca[i, j - 1], ca[i - 1, j - 1];
        ca[i, j] := Max(Min3(up, left, diag), d(P[i], Q[j]));
        j := j + 1;
      }
      i := i + 1;
    }
    r := ca[n - 1, m - 1];
  }
}

=== FILE: interpolation.dfy ===
/**
 `np.interp(x, xp, fp)` over a sample whose x values strictly increase:
 piecewise-linear between sample points, clamped to the first and last y
 value outside the sample's x range.
 */
module Interpolation {
  import opened Curves

  /** The straight line through `a` and `b`, evaluated at `x`, in NumPy's form `slope * (x - x0) + y0`. */
  function Lerp(a: Point, b: Point, x: real): real
    requires a.0 < b.0
  {
    (b.1 - a.1) / (b.0 - a.0) * (x - a.0) + a.1
  }

  lemma LerpEnds(a: Point, b: Point)
    requires a.0 < b.0
    ensures Lerp(a, b, a.0) == a.1
    ensures Lerp(a, b, b.0) == b.1
  {
    var s := (b.1 - a.1) / (b.0 - a.0);
    DivTimes(b.1 - a.1, b.0 - a.0);
    assert Lerp(a, b, b.0) == s * (b.0 - a.0) + a.1;
    assert Lerp(a, b, a.0) == s * 0.0 + a.1;
  }

  lemma DivTimes(n: real, d: real)
    requires d != 0.0
    ensures n / d * d == n
  {
  }

  function Interp(x: real, c: seq<Point>): (y: real)
    requires |c| > 0 && XAscending(c)
    ensures x <= c[0].0 ==> y == c[0].1
  {
    if |c| == 1 || x <= c[0].0 then c[0].1
    else if x <= c[1].0 then Lerp(c[0], c[1], x)
    else Interp(x, c[1..])
  }

  /** Beyond the last sample point the last y value is used. */
  lemma {:induction false} InterpClampsRight(x: real, c: seq<Point>)
    requires |c| > 0 && XAscending(c)
    requires c[|c| - 1].0 <= x
    ensures Interp(x, c) == c[|c| - 1].1
    decreases |c|
  {
    if |c| > 1 {
      assert c[0].0 < c[|c| - 1].0;
      if x <= c[1].0 {
        assert |c| == 2;
        LerpEnds(c[0], c[1]);
      } else {
        InterpClampsRight(x, c[1..]);
      }
    }
  }

  /** At a sample point the interpolant is that point's y value. */
  lemma {:induction false} InterpAtSamplePoint(c: seq<Point>, k: nat)
    requires |c| > 0 && XAscending(c)
    requires k < |c|
    ensures Interp(c[k].0, c) == c[k].1
    decreases k
  {
    if k > 0 {
      assert c[0].0 < c[k].0;
      if k == 1 {
        LerpEnds(c[0], c[1]);
      } else {
        assert c[1].0 < c[k].0;
        InterpAtSamplePoint(c[1..], k - 1);
      }
    }
  }

  /** Between two neighbouring sample points the interpolant is the line through them. */
  lemma {:induction false} InterpOnSegment(x: real, c: seq<Point>, k: nat)
    requires |c| > 0 && XAscending(c)
    requires k + 1 < |c| && c[k].0 <= x <= c[k + 1].0
    ensures Interp(x, c) == Lerp(c[k], c[k + 1], x)
    decreases k
  {
    if k == 0 {
      if x <= c[0].0 {
        LerpEnds(c[0], c[1]);
      }
    } else {
      assert c[0].0 < c[k].0 && c[1].0 <= c[k].0;
      if x == c[1].0 {
        InterpAtSamplePoint(c, 1);
        InterpAtSamplePoint(c[1..], 0);
        assert k == 1;
        LerpEnds(c[1], c[2]);
      } else {
        InterpOnSegment(x, c[1..], k - 1);
      }
    }
  }
}

=== FILE: metrics.dfy ===
/**
 `calculate_similarity_metrics`: decimate both curves, compare the baseline's
 y values with the sample interpolated at the baseline's x values, and measure
 the Fréchet distance between the curves decimated once more.
 */
module Metrics {
  import opened Curves
  import opened Decimation
  import opened Interpolation
  import opened Frechet
  import opened Coupling

  /** Row cap for the squared-error comparison. */
  const MaxPoints: nat := 5000
  /** Row cap for the Fréchet comparison, applied after `MaxPoints`. */
  const MaxFrechetPoints: nat := 500

  const EmptySampleError: string := "array of sample points is empty"
  const ZeroDivisionError: string := "float division by zero"

  function MetricCurve(c: seq<Point>): seq<Point> {
    Decimate(c, MaxPoints)
  }

  function FrechetCurve(c: seq<Point>): seq<Point> {
    Decimate(MetricCurve(c), MaxFrechetPoints)
  }

  lemma MulStrict(a: int, b: int, step: int)
    requires 0 <= a < b && step >= 1
    ensures a * step < b * step
  {
    assert b * step == a * step + (b - a) * step;
    MulAtLeast(step, b - a);
  }

  /** Decimation keeps rows in order, so an ascending sample stays ascending. */
  lemma DecimatePreservesAscending(c: seq<Point>, cap: nat)
    requires cap >= 1 && XAscending(c)
    ensures XAscending(Decimate(c, cap))
  {
    DecimateKeeps(c, cap);
    if |c| > cap {
      var r := Decimate(c, cap);
      var step := |c| / cap;
      forall i, j | 0 <= i < j < |r|
        ensures r[i].0 < r[j].0
      {
        MulStrict(i, j, step);
        assert r[i] == c[i * step] && r[j] == c[j * step];
      }
    }
  }

  lemma CurvesKeepShape(c: seq<Point>)
    ensures |c| > 0 ==> |MetricCurve(c)| > 0 && MetricCurve(c)[0] == c[0]
    ensures |c| > 0 ==> |FrechetCurve(c)| > 0 && FrechetCurve(c)[0] == c[0]
    ensures XAscending(c) ==> XAscending(MetricCurve(c)) && XAscending(FrechetCurve(c))
  {
    DecimateSubsequence(c, MaxPoints);
    DecimateSubsequence(MetricCurve(c), MaxFrechetPoints);
    if XAscending(c) {
      DecimatePreservesAscending(c, MaxPoints);
      DecimatePreservesAscending(MetricCurve(c), MaxFrechetPoints);
    }
  }

  /** The residual of one baseline row against the interpolated sample. */
  function Residual(b: Point, sample: seq<Point>): real
    requires |sample| > 0 && XAscending(sample)
  {
    b.1 - Interp(b.0, sample)
  }

  /** `np.sum((baseline_y - np.interp(baseline_x, sample_x, sample_y)) ** 2)` */
  function SquaredError(base: seq<Point>, sample: seq<Point>): (r: real)
    requires |sample| > 0 && XAscending(sample)
    ensures r >= 0.0
  {
    if |base| == 0 then 0.0
    else Square(Residual(base[0], sample)) + SquaredError(base[1..], sample)
  }

  /** Every baseline row lies on the interpolated sample. */
  ghost predicate OnInterpolation(base: seq<Point>, sample: seq<Point>)
    requires |sample| > 0 && XAscending(sample)
  {
    forall k :: 0 <= k < |base| ==> base[k].1 == Interp(base[k].0, sample)
  }

  /** The squared error is zero exactly when every baseline row lies on the interpolated sample. */
  lemma {:induction false} SquaredErrorZeroIff(base: seq<Point>, sample: seq<Point>)
    requires |sample| > 0 && XAscending(sample)
    ensures SquaredError(base, sample) == 0.0 <==> OnInterpolation(base, sample)
    decreases |base|
  {
    if |base| > 0 {
      SquaredErrorZeroIff(base[1..], sample);
      SquareZeroOrPositive(Residual(base[0], sample));
      if forall k :: 0 <= k < |base| ==> base[k].1 == Interp(base[k].0, sample) {
        assert forall k :: 0 <= k < |base| - 1 ==> base[1..][k] == base[k + 1];
      }
      if SquaredError(base, sample) == 0.0 {
        forall k | 0 <= k < |base|
          ensures base[k].1 == Interp(base[k].0, sample)
        {
          if k > 0 {
            assert base[k] == base[1..][k - 1];
          }
        }
      }
    }
  }

  /** An ascending curve has squared error 0 against itself. */
  lemma SquaredErrorSelfZero(c: seq<Point>)
    requires |c| > 0 && XAscending(c)
    ensures SquaredError(c, c) == 0.0
  {
    forall k | 0 <= k < |c|
      ensures c[k].1 == Interp(c[k].0, c)
    {
      InterpAtSamplePoint(c, k);
    }
    SquaredErrorZeroIff(c, c);
  }

  /** `m` is `total` shared out over `n` rows. */
  predicate IsMean(m: real, total: real, n: nat) {
    m * (n as real) == total
  }

  /** `total / n`, Python's true division by a positive length. */
  function Mean(total: real, n: nat): (r: real)
    requires n > 0
    ensures IsMean(r, total, n)
    ensures total >= 0.0 ==> r >= 0.0
    ensures total == 0.0 ==> r == 0.0
  {
    total / (n as real)
  }

  /** The dictionary returned: the four scores, or the error text with every score `None`. */
  datatype SimilarityReport =
    | Scores(sse: real, frechetDistance: real, normalizedSse: real, rmse: real)
    | Failure(error: string)

  /**
   The metrics of `sample` against `baseline`, with `sqrt` standing for
   `np.sqrt`. An empty sample fails inside `np.interp`; an empty baseline
   fails at the division by its length.
   */
  function SimilarityMetrics(baseline: seq<Point>, sample: seq<Point>, sqrt: real -> real): (r: SimilarityReport)
    requires IsSqrt(sqrt) && XAscending(sample)
    ensures r.Failure? <==> |sample| == 0 || |baseline| == 0
    ensures |sample| == 0 ==> r == Failure(EmptySampleError)
    ensures |sample| > 0 && |baseline| == 0 ==> r == Failure(ZeroDivisionError)
    ensures r.Scores? ==>
              (CurvesKeepShape(sample);
               r.sse == SquaredError(MetricCurve(baseline), MetricCurve(sample)))
    ensures r.Scores? ==> r.frechetDistance == FrechetDistance(Euclid(sqrt), FrechetCurve(baseline), FrechetCurve(sample))
    ensures r.Scores? ==>
              && r.sse >= 0.0
              && r.normalizedSse >= 0.0
              && IsMean(r.normalizedSse, r.sse, |MetricCurve(baseline)|)
              && r.rmse >= 0.0
              && r.rmse * r.rmse == r.normalizedSse
              && r.frechetDistance >= Euclid(sqrt)(baseline[0], sample[0])
    ensures r.Scores? ==>
              (CurvesKeepShape(sample);
               r.sse == 0.0 <==> OnInterpolation(MetricCurve(baseline), MetricCurve(sample)))
  {
    if |sample| == 0 then Failure(EmptySampleError)
    else if |baseline| == 0 then Failure(ZeroDivisionError)
    else
      CurvesKeepShape(baseline);
      CurvesKeepShape(sample);
      var base := MetricCurve(baseline);
      var samp := MetricCurve(sample);
      var sse := SquaredError(base, samp);
      SquaredErrorZeroIff(base, samp);
      var nsse := Mean(sse, |base|);
      var d := Euclid(sqrt);
      var fd := FrechetDistance(d, FrechetCurve(baseline), FrechetCurve(sample));
      FrechetAtLeastEndpoints(d, FrechetCurve(baseline), FrechetCurve(sample));
      Scores(sse, fd, nsse, sqrt(nsse))
  }

  /**
   The reported Fréchet value is the least leash over all couplings of the
   two curves after both thinning stages: no coupling has a shorter one, and
   some coupling attains it.
   */
  lemma ReportedFrechetIsLeastLeash(baseline: seq<Point>, sample: seq<Point>, sqrt: real -> real)
    requires IsSqrt(sqrt) && XAscending(sample) && |baseline| > 0 && |sample| > 0
    ensures var r := SimilarityMetrics(baseline, sample, sqrt);
            var P, Q := FrechetCurve(baseline), FrechetCurve(sample);
            && r.Scores?
            && (forall w :: IsCoupling(w, |P|, |Q|) ==> r.frechetDistance <= Leash(Euclid(sqrt), P, Q, w))
            && (exists w :: IsCoupling(w, |P|, |Q|) && Leash(Euclid(sqrt), P, Q, w) == r.frechetDistance)
  {
    var P, Q := FrechetCurve(baseline), FrechetCurve(sample);
    CurvesKeepShape(baseline);
    CurvesKeepShape(sample);
    forall w | IsCoupling(w, |P|, |Q|)
      ensures FrechetDistance(Euclid(sqrt), P, Q) <= Leash(Euclid(sqrt), P, Q, w)
    {
      FrechetBelowEveryCoupling(Euclid(sqrt), P, Q, w);
    }
    FrechetAttained(Euclid(sqrt), P, Q);
  }

  /** A curve compared with itself scores 0 on every metric. */
  lemma SelfComparisonIsZero(c: seq<Point>, sqrt: real -> real)
    requires IsSqrt(sqrt) && XAscending(c) && |c| > 0
    ensures SimilarityMetrics(c, c, sqrt) == Scores(0.0, 0.0, 0.0, 0.0)
  {
    CurvesKeepShape(c);
    SquaredErrorSelfZero(MetricCurve(c));
    EuclidIsDistance(sqrt);
    FrechetSelfZero(Euclid(sqrt), FrechetCurve(c));
    assert 0.0 / (|MetricCurve(c)| as real) == 0.0;
  }
}

=== FILE: plotter.dfy ===
/**
 The naming side of `generate_and_save`: where each graph image is written
 and the URL path handed back for it. `SAVE_DIR` is a parameter (the source
 derives it from the module's own location).
 */
module Plotter {
  import opened Wrappers
  import opened PyStr
  import opened PosixPath

  /** The URL prefix under which the static mount serves `SAVE_DIR`. */
  const StaticPrefix: string := "/static/generated_graphs/"

  /** The sanitiser: drop every `..`, turn `/` into `_`, trim whitespace. */
  function SanitizeSubdir(s: string): (r: string)
    ensures '/' !in r
    ensures NoDoubleDot(r)
  {
    var noDots := ReplaceAll(s, "..", "");
    RemoveDoubleDotsLeavesNone(s);
    SlashReplaceKeepsNoDoubleDot(noDots);
    var noSlash := ReplaceAll(noDots, "/", "_");
    StripKeepsSafety(noSlash);
    Strip(noSlash)
  }

  lemma SlashReplaceKeepsNoDoubleDot(t: string)
    requires NoDoubleDot(t)
    ensures '/' !in ReplaceAll(t, "/", "_")
    ensures NoDoubleDot(ReplaceAll(t, "/", "_"))
  {
    ReplaceCharPointwise(t, '/', '_');
    var u := ReplaceAll(t, "/", "_");
    assert forall k :: 0 <= k < |u| ==> (u[k] == '.' <==> t[k] == '.');
    assert forall k :: 0 <= k < |u| ==> u[k] != '/';
  }

  lemma StripKeepsSafety(t: string)
    requires '/' !in t && NoDoubleDot(t)
    ensures '/' !in Strip(t) && NoDoubleDot(Strip(t))
  {
    var r := Strip(t);
    var a :| TrimmedAt(r, t, a);
    assert forall k :: 0 <= k < |r| ==> r[k] == t[a + k];
  }

  /** A run of dots loses them in pairs: k dots leave k mod 2. */
  lemma SanitizeDotRun(k: nat)
    ensures SanitizeSubdir(Dots(k)) == Dots(k % 2)
  {
    RemoveDoubleDotsOnRun(k);
    var d := Dots(k % 2);
    ReplaceCharPointwise(d, '/', '_');
    assert ReplaceAll(d, "/", "_") == d;
    assert LStrip(d) == d;
    assert RStrip(d) == d;
  }

  /**
   The subdirectory actually used: `if save_subdir:` skips `None` and the
   empty string, and `if safe:` skips a name that sanitises to nothing.
   */
  function SafeSubdir(saveSubdir: Option<string>): (r: Option<string>)
    ensures r.Some? ==> r.value != "" && '/' !in r.value && NoDoubleDot(r.value)
    ensures r.Some? <==> saveSubdir.Some? && saveSubdir.value != "" && SanitizeSubdir(saveSubdir.value) != ""
    ensures r.Some? ==> r.value == SanitizeSubdir(saveSubdir.value)
  {
    match saveSubdir
    case None => None
    case Some(sub) =>
      if sub == "" then None
      else
        var safe := SanitizeSubdir(sub);
        if safe != "" then Some(safe) else None
  }

  /** The directory written to: `SAVE_DIR`, or `SAVE_DIR/safe` when a subdirectory is used. */
  function TargetDir(saveDir: string, saveSubdir: Option<string>): string {
    match SafeSubdir(saveSubdir)
    case None => saveDir
    case Some(safe) => Join(saveDir, safe)
  }

  /** The target is `SAVE_DIR` itself or a direct child of it, named by the sanitised subdirectory. */
  lemma TargetDirShape(saveDir: string, saveSubdir: Option<string>)
    ensures SafeSubdir(saveSubdir).None? ==> TargetDir(saveDir, saveSubdir) == saveDir
    ensures SafeSubdir(saveSubdir).Some? ==>
              var safe := SafeSubdir(saveSubdir).value;
              && TargetDir(saveDir, saveSubdir) == Join(saveDir, safe)
              && Basename(TargetDir(saveDir, saveSubdir)) == safe
              && (saveDir != "" && saveDir[|saveDir| - 1] != '/' ==>
                    TargetDir(saveDir, saveSubdir) == saveDir + "/" + safe)
  {
    if SafeSubdir(saveSubdir).Some? {
      JoinSubdir(saveDir, SafeSubdir(saveSubdir).value);
    }
  }

  lemma JoinSubdir(saveDir: string, safe: string)
    requires safe != "" && '/' !in safe
    ensures Basename(Join(saveDir, safe)) == safe
    ensures |Join(saveDir, safe)| > |saveDir|
    ensures saveDir != "" && saveDir[|saveDir| - 1] != '/' ==> Join(saveDir, safe) == saveDir + "/" + safe
  {
    BasenameOfJoin(saveDir, safe);
    assert !StartsWith(safe, "/") by { assert safe[0] != '/'; }
  }

  /** `format.lower()` if it is one of the supported image formats, otherwise `png`. */
  function FileExtension(format: string): (ext: string)
    ensures ext == "png" || ext == "jpeg" || ext == "jpg"
    ensures ext == Lower(format) || (ext == "png" && Lower(format) !in ["png", "jpeg", "jpg"])
    ensures '/' !in ext && '.' !in ext
  {
    var f := Lower(format);
    if f in ["png", "jpeg", "jpg"] then f else "png"
  }

  /** The choice ignores ASCII case. */
  lemma FileExtensionIgnoresCase(format: string)
    ensures FileExtension(Lower(format)) == FileExtension(format)
  {
    LowerIdempotent(format);
  }

  lemma FileExtensionExamples()
    ensures FileExtension("PNG") == "png"
    ensures FileExtension("Jpeg") == "jpeg"
    ensures FileExtension("JPG") == "jpg"
    ensures FileExtension("svg") == "png"
    ensures FileExtension("") == "png"
  {
    assert Lower("PNG") == "png";
    assert Lower("Jpeg") == "jpeg";
    assert Lower("JPG") == "jpg";
    assert Lower("svg") == "svg";
  }

  /** `f"{os.path.splitext(filename)[0]}.{ext}"`: the sample's name with its extension replaced. */
  function OutName(filename: string, ext: string): (r: string)
    ensures '/' !in filename && '/' !in ext ==> '/' !in r
  {
    var stem := SplitExt(filename).0;
    assert forall k :: 0 <= k < |stem| ==> stem[k] == filename[k] by {
      assert filename == stem + SplitExt(filename).1;
    }
    stem + "." + ext
  }

  /** The last path component of `p` has a character other than `.`. */
  predicate NamedComponent(p: string) {
    HasNonDot(p, RFind(p, '/') + 1, |p|)
  }

  /** `rfind` is pinned down by its contract. */
  lemma RFindUnique(s: string, c: char, r: int)
    requires -1 <= r < |s| && (r >= 0 ==> s[r] == c)
    requires forall k :: r < k < |s| ==> s[k] != c
    ensures RFind(s, c) == r
  {
  }

  lemma RFindAppend(s: string, t: string, c: char)
    requires c !in t
    ensures RFind(s + t, c) == RFind(s, c)
  {
    var r := RFind(s, c);
    var u := s + t;
    assert forall k :: 0 <= k < |s| ==> u[k] == s[k];
    assert forall k :: |s| <= k < |u| ==> u[k] == t[k - |s|];
    RFindUnique(u, c, r);
  }

  /**
   Splitting the output name again gives back the sample's stem and the chosen
   extension, provided the stem's last component is not made of dots only
   (`.` and `..` have no stem to attach an extension to).
   */
  lemma OutNameSplitsBack(filename: string, ext: string)
    requires '.' !in ext && '/' !in ext
    requires NamedComponent(SplitExt(filename).0)
    ensures SplitExt(OutName(filename, ext)) == (SplitExt(filename).0, "." + ext)
  {
    var stem := SplitExt(filename).0;
    var p := OutName(filename, ext);
    assert p == stem + ("." + ext);
    RFindAppend(stem, "." + ext, '/');
    var sep := RFind(p, '/');
    assert sep == RFind(stem, '/');
    var dot := RFind(p, '.');
    assert p[|stem|] == '.';
    assert forall k :: |stem| < k < |p| ==> p[k] == ext[k - |stem| - 1];
    assert dot == |stem|;
    var w :| sep + 1 <= w < |stem| && stem[w] != '.';
    assert p[w] == stem[w];
    assert HasNonDot(p, sep + 1, dot);
    assert p[..dot] == stem;
  }

  /** `os.path.join(target_dir, out_name)`: the file written. */
  function OutPath(saveDir: string, saveSubdir: Option<string>, filename: string, format: string): string {
    Join(TargetDir(saveDir, saveSubdir), OutName(filename, FileExtension(format)))
  }

  /** The URL path returned for one image. */
  function RelPath(saveDir: string, saveSubdir: Option<string>, filename: string, format: string): string {
    var target := TargetDir(saveDir, saveSubdir);
    var outName := OutName(filename, FileExtension(format));
    if target == saveDir then StaticPrefix + outName
    else StaticPrefix + Basename(target) + "/" + outName
  }

  /**
   The URL path is the prefix and the output name, with the sanitised
   subdirectory in between when one is used.
   */
  lemma RelPathShape(saveDir: string, saveSubdir: Option<string>, filename: string, format: string)
    ensures var outName := OutName(filename, FileExtension(format));
            RelPath(saveDir, saveSubdir, filename, format) ==
              match SafeSubdir(saveSubdir)
              case None => StaticPrefix + outName
              case Some(safe) => StaticPrefix + safe + "/" + outName
  {
    TargetDirShape(saveDir, saveSubdir);
    if SafeSubdir(saveSubdir).Some? {
      // Join(saveDir, safe) is longer than saveDir, so the comparison with SAVE_DIR fails.
      JoinSubdir(saveDir, SafeSubdir(saveSubdir).value);
    }
  }

  /** `generate_and_save`'s result: one URL path per sample, in order. */
  function GenerateAndSave(saveDir: string, filenames: seq<string>, saveSubdir: Option<string>, format: string): (rels: seq<string>)
    ensures |rels| == |filenames|
    ensures forall k :: 0 <= k < |filenames| ==> rels[k] == RelPath(saveDir, saveSubdir, filenames[k], format)
  {
    seq(|filenames|, k requires 0 <= k < |filenames| => RelPath(saveDir, saveSubdir, filenames[k], format))
  }

  /** The files `generate_and_save` writes, one per sample, in order. */
  function SavedFiles(saveDir: string, filenames: seq<string>, saveSubdir: Option<string>, format: string): (paths: seq<string>)
    ensures |paths| == |filenames|
    ensures forall k :: 0 <= k < |filenames| ==> paths[k] == OutPath(saveDir, saveSubdir, filenames[k], format)
  {
    seq(|filenames|, k requires 0 <= k < |filenames| => OutPath(saveDir, saveSubdir, filenames[k], format))
  }
}

=== FILE: posixpath.dfy ===
/**
 The `os.path` functions the backend uses, as POSIX `posixpath` defines them:
 two-argument `join`, `basename` and `splitext`.
 */
module PosixPath {
  import opened PyStr

  /** `os.path.join(a, b)`: an absolute `b` replaces `a`; otherwise one `/` separates them. */
  function Join(a: string, b: string): (r: string)
    ensures StartsWith(b, "/") ==> r == b
    ensures !StartsWith(b, "/") && (a == "" || a[|a| - 1] == '/') ==> r == a + b
    ensures !StartsWith(b, "/") && a != "" && a[|a| - 1] != '/' ==> r == a + "/" + b
  {
    if StartsWith(b, "/") then b
    else if a == "" || a[|a| - 1] == '/' then a + b
    else a + "/" + b
  }

  /** `os.path.basename(p)`: everything after the last `/`. */
  function Basename(p: string): (r: string)
    ensures '/' !in r
    ensures |r| <= |p| && r == p[|p| - |r|..]
    ensures |r| < |p| ==> p[|p| - |r| - 1] == '/'
  {
    p[RFind(p, '/') + 1..]
  }

  /** Joining a name without `/` onto a directory leaves that name as the basename. */
  lemma BasenameOfJoin(dir: string, name: string)
    requires name != "" && '/' !in name
    ensures Basename(Join(dir, name)) == name
  {
    var j := Join(dir, name);
    assert !StartsWith(name, "/") by { assert name[0] != '/'; }
    var k := |j| - |name|;
    assert j[k..] == name;
    var i := RFind(j, '/');
    assert forall t :: k <= t < |j| ==> j[t] == name[t - k];
    if dir == "" {
      assert i == -1;
    } else {
      assert j[k - 1] == '/';
      assert i == k - 1;
    }
  }

  /** There is a character other than `.` in `p[lo..hi]`. */
  predicate HasNonDot(p: string, lo: int, hi: int)
    requires 0 <= lo && hi <= |p|
  {
    exists k | lo <= k < hi :: p[k] != '.'
  }

  /**
   `os.path.splitext(p)`: the extension starts at the last dot of the last
   path component, unless everything before that dot in the component is a dot
   (a leading-dot name such as `.bashrc` has no extension).
   */
  function SplitExt(p: string): (r: (string, string))
    ensures r.0 + r.1 == p
    ensures r.1 == "" || (r.1[0] == '.' && '/' !in r.1)
    ensures r.1 != "" ==> '.' !in r.1[1..]
    ensures r.1 != "" ==> RFind(p, '/') < |r.0| && HasNonDot(p, RFind(p, '/') + 1, |r.0|)
    ensures r.1 == "" ==>
              forall k | RFind(p, '/') < k < |p| && p[k] == '.' :: !HasNonDot(p, RFind(p, '/') + 1, k)
  {
    var sepIndex := RFind(p, '/');
    var dotIndex := RFind(p, '.');
    if dotIndex > sepIndex && HasNonDot(p, sepIndex + 1, dotIndex) then
      assert p[..dotIndex] + p[dotIndex..] == p;
      (p[..dotIndex], p[dotIndex..])
    else (p, "")
  }
}

=== FILE: pystr.dfy ===
/**
 The few Python `str` methods the backend relies on, stated over `seq<char>`:
 `startswith`, `replace`, `strip`, `lower` and `rfind`.
 */
module PyStr {

  /** `s.startswith(p)` */
  predicate StartsWith(s: string, p: string) {
    |p| <= |s| && s[..|p|] == p
  }

  /** `pat` occurs in `s` starting at index `k`. */
  predicate OccursAt(s: string, pat: string, k: int) {
    0 <= k <= |s| - |pat| && s[k..k + |pat|] == pat
  }

  /** True iff `pat` occurs somewhere in `s` (Python's `pat in s`). */
  predicate Contains(s: string, pat: string) {
    exists k | 0 <= k <= |s| - |pat| :: OccursAt(s, pat, k)
  }

  /** `r` is the slice of `s` that starts at index `a`. */
  predicate IsSliceAt(r: string, s: string, a: int) {
    0 <= a <= |s| - |r| && r == s[a..a + |r|]
  }

  /**
   `s.replace(pat, rep)` for a non-empty `pat`: occurrences are found from
   the left and do not overlap; the text produced by `rep` is never rescanned.
   */
  function ReplaceAll(s: string, pat: string, rep: string): string
    requires |pat| > 0
    decreases |s|
  {
    if |s| < |pat| then s
    else if s[..|pat|] == pat then rep + ReplaceAll(s[|pat|..], pat, rep)
    else [s[0]] + ReplaceAll(s[1..], pat, rep)
  }

  /** No two adjacent dots, i.e. `".." not in s`. */
  predicate NoDoubleDot(s: string) {
    forall k :: 0 <= k < |s| - 1 ==> !(s[k] == '.' && s[k + 1] == '.')
  }

  /** A run of `k` dots. */
  function Dots(k: nat): (s: string)
    ensures |s| == k
    ensures forall i :: 0 <= i < k ==> s[i] == '.'
  {
    if k == 0 then [] else ['.'] + Dots(k - 1)
  }

  lemma {:induction false} RemoveDoubleDotsKeepsLeadingNonDot(s: string)
    requires |s| > 0 && s[0] != '.'
    ensures ReplaceAll(s, "..", "") == [s[0]] + ReplaceAll(s[1..], "..", "")
  {
    if |s| >= 2 {
      assert s[..2] != "..";
    }
  }

  /** Removing every ".." from left to right cannot bring two dots together. */
  lemma {:induction false} RemoveDoubleDotsLeavesNone(s: string)
    ensures NoDoubleDot(ReplaceAll(s, "..", ""))
    decreases |s|
  {
    var r := ReplaceAll(s, "..", "");
    if |s| < 2 {
    } else if s[..2] == ".." {
      RemoveDoubleDotsLeavesNone(s[2..]);
      assert r == ReplaceAll(s[2..], "..", "");
    } else {
      var rest := ReplaceAll(s[1..], "..", "");
      RemoveDoubleDotsLeavesNone(s[1..]);
      assert r == [s[0]] + rest;
      if s[0] == '.' {
        // the next character is kept and is not a dot
        assert s[1] != '.';
        RemoveDoubleDotsKeepsLeadingNonDot(s[1..]);
        assert rest[0] == s[1];
      }
      forall k | 0 <= k < |r| - 1
        ensures !(r[k] == '.' && r[k + 1] == '.')
      {
        if k > 0 {
          assert r[k] == rest[k - 1] && r[k + 1] == rest[k];
        }
      }
    }
  }

  /** A run of k dots shrinks to k mod 2 dots. */
  lemma {:induction false} RemoveDoubleDotsOnRun(k: nat)
    ensures ReplaceAll(Dots(k), "..", "") == Dots(k % 2)
    decreases k
  {
    if k >= 2 {
      var s := Dots(k);
      assert s[..2] == "..";
      assert s[2..] == Dots(k - 2) by {
        assert |s[2..]| == k - 2;
        forall i | 0 <= i < k - 2 ensures s[2..][i] == Dots(k - 2)[i] {}
      }
      RemoveDoubleDotsOnRun(k - 2);
    }
  }

  /** Replacing a character by another character changes nothing else. */
  lemma {:induction false} ReplaceCharPointwise(s: string, a: char, b: char)
    ensures |ReplaceAll(s, [a], [b])| == |s|
    ensures forall k :: 0 <= k < |s| ==>
              ReplaceAll(s, [a], [b])[k] == (if s[k] == a then b else s[k])
    decreases |s|
  {
    if |s| > 0 {
      ReplaceCharPointwise(s[1..], a, b);
      var rest := ReplaceAll(s[1..], [a], [b]);
      assert ReplaceAll(s, [a], [b]) == [if s[0] == a then b else s[0]] + rest by {
        if s[..1] == [a] { assert s[0] == a; } else { assert s[0] != a; }
      }
    }
  }

  /** A pattern that does not occur is not replaced. */
  lemma {:induction false} ReplaceAbsent(s: string, pat: string, rep: string)
    requires |pat| > 0
    requires !Contains(s, pat)
    ensures ReplaceAll(s, pat, rep) == s
    decreases |s|
  {
    if |s| >= |pat| {
      assert s[0..0 + |pat|] == s[..|pat|];
      assert !OccursAt(s, pat, 0);
      assert !Contains(s[1..], pat) by {
        if Contains(s[1..], pat) {
          var k :| 0 <= k <= |s[1..]| - |pat| && OccursAt(s[1..], pat, k);
          assert s[1..][k..k + |pat|] == pat;
          assert s[k + 1..k + 1 + |pat|] == s[1..][k..k + |pat|];
          assert OccursAt(s, pat, k + 1);
          assert false;
        }
      }
      ReplaceAbsent(s[1..], pat, rep);
      assert s == [s[0]] + s[1..];
    }
  }

  /**
   The characters `str.strip()` removes: the code points for which Python's
   `str.isspace()` holds.
   */
  predicate IsSpace(c: char) {
    var n := c as int;
    (9 <= n <= 13) || (28 <= n <= 32) || n == 0x85 || n == 0xA0 || n == 0x1680
    || (0x2000 <= n <= 0x200A) || n == 0x2028 || n == 0x2029 || n == 0x202F
    || n == 0x205F || n == 0x3000
  }

  function LStrip(s: string): (r: string)
    ensures |r| <= |s| && r == s[|s| - |r|..]
    ensures |r| > 0 ==> !IsSpace(r[0])
    ensures forall k :: 0 <= k < |s| - |r| ==> IsSpace(s[k])
  {
    if |s| > 0 && IsSpace(s[0]) then LStrip(s[1..]) else s
  }

  function RStrip(s: string): (r: string)
    ensures |r| <= |s| && r == s[..|r|]
    ensures |r| > 0 ==> !IsSpace(r[|r| - 1])
    ensures forall k :: |r| <= k < |s| ==> IsSpace(s[k])
  {
    if |s| > 0 && IsSpace(s[|s| - 1]) then RStrip(s[..|s| - 1]) else s
  }

  /** `r` is the slice of `s` at `a`, and everything of `s` around it is whitespace. */
  predicate TrimmedAt(r: string, s: string, a: int) {
    IsSliceAt(r, s, a)
    && (forall k :: 0 <= k < a ==> IsSpace(s[k]))
    && (forall k :: a + |r| <= k < |s| ==> IsSpace(s[k]))
  }

  /** `s.strip()`: the slice of `s` left once whitespace is cut from both ends. */
  function Strip(s: string): (r: string)
    ensures exists a :: TrimmedAt(r, s, a)
    ensures |r| > 0 ==> !IsSpace(r[0]) && !IsSpace(r[|r| - 1])
  {
    var l := LStrip(s);
    var r := RStrip(l);
    TrimmedOfParts(s, l, r);
    r
  }

  /** Cutting whitespace from the front of `s` and then from the back of the rest trims `s`. */
  lemma TrimmedOfParts(s: string, l: string, r: string)
    requires |l| <= |s| && l == s[|s| - |l|..]
    requires forall k :: 0 <= k < |s| - |l| ==> IsSpace(s[k])
    requires |r| <= |l| && r == l[..|r|]
    requires forall k :: |r| <= k < |l| ==> IsSpace(l[k])
    ensures TrimmedAt(r, s, |s| - |l|)
  {
    var a := |s| - |l|;
    assert forall k :: a <= k < |s| ==> s[k] == l[k - a];
  }

  /** ASCII part of `str.lower()`. */
  function LowerChar(c: char): (l: char)
    ensures 'A' <= c <= 'Z' ==> l as int == c as int + 32
    ensures !('A' <= c <= 'Z') ==> l == c
  {
    if 'A' <= c <= 'Z' then (c as int + 32) as char else c
  }

  function Lower(s: string): (r: string)
    ensures |r| == |s|
    ensures forall k :: 0 <= k < |s| ==> r[k] == LowerChar(s[k])
  {
    if |s| == 0 then [] else [LowerChar(s[0])] + Lower(s[1..])
  }

  lemma LowerIdempotent(s: string)
    ensures Lower(Lower(s)) == Lower(s)
  {
  }

  /** `s.rfind(c)`: the last index of `c`, or -1. */
  function RFind(s: string, c: char): (r: int)
    ensures -1 <= r < |s|
    ensures r >= 0 ==> s[r] == c
    ensures forall k :: r < k < |s| ==> s[k] != c
  {
    if |s| == 0 then -1
    else if s[|s| - 1] == c then |s| - 1
    else RFind(s[..|s| - 1], c)
  }
}

=== FILE: tick_scale.dfy ===
/**
 `map_x_to_position` in `generate_and_save`: wavenumbers are placed on an axis
 whose eleven custom ticks are equally spaced, by linear interpolation between
 the two ticks a value falls between.
 */
module TickScale {
  import opened Wrappers

  /** The custom x ticks, in cm⁻¹, from left to right. */
  const Ticks: seq<real> := [4000.0, 3500.0, 3000.0, 2500.0, 2000.0, 1750.0, 1500.0, 1250.0, 1000.0, 750.0, 550.0]

  ghost predicate Descending(ts: seq<real>) {
    forall i, j :: 0 <= i < j < |ts| ==> ts[i] > ts[j]
  }

  lemma TicksDescending()
    ensures |Ticks| == 11 && Descending(Ticks)
  {
    forall i, j | 0 <= i < j < |Ticks|
      ensures Ticks[i] > Ticks[j]
    {
      assert forall k :: 0 <= k < |Ticks| - 1 ==> Ticks[k] > Ticks[k + 1];
      TicksStepDown(i, j);
    }
  }

  lemma {:induction false} TicksStepDown(i: nat, j: nat)
    requires i < j < |Ticks|
    requires forall k :: 0 <= k < |Ticks| - 1 ==> Ticks[k] > Ticks[k + 1]
    ensures Ticks[i] > Ticks[j]
    decreases j - i
  {
    if i + 1 < j {
      TicksStepDown(i + 1, j);
    }
  }

  predicate InSegment(ts: seq<real>, i: nat, x: real)
    requires i + 1 < |ts|
  {
    ts[i] >= x >= ts[i + 1]
  }

  /** The inner loop: the first i, from `from` on, with `ts[i] >= x >= ts[i + 1]`. */
  function FindSegment(ts: seq<real>, x: real, from: nat): (r: Option<nat>)
    ensures r.Some? ==>
              && from <= r.value && r.value + 1 < |ts| && InSegment(ts, r.value, x)
              && forall k :: from <= k < r.value ==> !InSegment(ts, k, x)
    ensures r.None? ==> forall k :: from <= k && k + 1 < |ts| ==> !InSegment(ts, k, x)
    decreases |ts| - from
  {
    if from + 1 >= |ts| then None
    else if ts[from] >= x >= ts[from + 1] then Some(from)
    else FindSegment(ts, x, from + 1)
  }

  /** Where the scan over a descending tick list finds a segment: anywhere between its first and last tick. */
  lemma {:induction false} FindSegmentSucceeds(ts: seq<real>, x: real, from: nat)
    requires Descending(ts) && from + 1 < |ts|
    requires ts[from] >= x >= ts[|ts| - 1]
    ensures FindSegment(ts, x, from).Some?
    decreases |ts| - from
  {
    if !(ts[from] >= x >= ts[from + 1]) {
      FindSegmentSucceeds(ts, x, from + 1);
    }
  }

  /** `t` lies in the unit interval. */
  predicate InUnit(t: real) {
    0.0 <= t <= 1.0
  }

  lemma UnitRatio(n: real, d: real)
    requires d < 0.0 && d <= n <= 0.0
    ensures InUnit(n / d)
  {
  }

  lemma RatioAntitone(n1: real, n2: real, d: real)
    requires d < 0.0 && n1 >= n2
    ensures n1 / d <= n2 / d
  {
  }

  lemma RatioEnds(d: real)
    requires d < 0.0
    ensures 0.0 / d == 0.0 && d / d == 1.0
  {
  }

  /** `t = (x - x1) / (x2 - x1)`: how far `x` has moved from tick i towards tick i + 1. */
  function Fraction(ts: seq<real>, i: nat, x: real): real
    requires i + 1 < |ts| && ts[i] > ts[i + 1]
  {
    (x - ts[i]) / (ts[i + 1] - ts[i])
  }

  /** `pos1 + t * (pos2 - pos1)` with `pos1 = i` and `pos2 = i + 1`. */
  function SegmentPosition(ts: seq<real>, i: nat, x: real): (p: real)
    requires i + 1 < |ts| && ts[i] > ts[i + 1]
  {
    (i as real) + Fraction(ts, i, x)
  }

  lemma SegmentPositionBounds(ts: seq<real>, i: nat, x: real)
    requires i + 1 < |ts| && ts[i] > ts[i + 1] && InSegment(ts, i, x)
    ensures i as real <= SegmentPosition(ts, i, x) <= (i + 1) as real
  {
    UnitRatio(x - ts[i], ts[i + 1] - ts[i]);
  }

  lemma SegmentPositionAtTicks(ts: seq<real>, i: nat)
    requires i + 1 < |ts| && ts[i] > ts[i + 1]
    ensures SegmentPosition(ts, i, ts[i]) == i as real
    ensures SegmentPosition(ts, i, ts[i + 1]) == (i + 1) as real
  {
    RatioEnds(ts[i + 1] - ts[i]);
  }

  lemma SegmentPositionAntitone(ts: seq<real>, i: nat, x: real, y: real)
    requires i + 1 < |ts| && ts[i] > ts[i + 1] && x >= y
    ensures SegmentPosition(ts, i, x) <= SegmentPosition(ts, i, y)
  {
    RatioAntitone(x - ts[i], y - ts[i], ts[i + 1] - ts[i]);
  }

  /**
   The position of one value: 0 at or above 4000, the last index at or below
   550, otherwise interpolated inside the first segment that holds it. The
   `None` branch is never taken for a real value: `PositionTotal` shows that
   every real gets a position. Only NaN, which the reals do not include, would
   reach it in the source.
   */
  function PositionOf(x: real): (p: Option<real>) {
    if x >= 4000.0 then Some(0.0)
    else if x <= 550.0 then Some((|Ticks| - 1) as real)
    else
      match FindSegment(Ticks, x, 0)
      case Some(i) =>
        TicksDescending();
        Some(SegmentPosition(Ticks, i, x))
      case None => None
  }

  /** `map_x_to_position`: one position per value that has one, in order. */
  function MapXToPosition(xs: seq<real>): (ps: seq<real>)
    ensures |ps| <= |xs|
  {
    if |xs| == 0 then []
    else
      match PositionOf(xs[0])
      case Some(p) => [p] + MapXToPosition(xs[1..])
      case None => MapXToPosition(xs[1..])
  }

  /** Every real wavenumber gets a position, and it lies on the axis [0, 10]. */
  lemma PositionTotal(x: real)
    ensures PositionOf(x).Some?
    ensures 0.0 <= PositionOf(x).value <= 10.0
  {
    TicksDescending();
    if 550.0 < x < 4000.0 {
      FindSegmentSucceeds(Ticks, x, 0);
      var i := FindSegment(Ticks, x, 0).value;
      SegmentPositionBounds(Ticks, i, x);
    }
  }

  /** No value is dropped, and the k-th position belongs to the k-th value. */
  lemma {:induction false} MapXToPositionPointwise(xs: seq<real>)
    ensures |MapXToPosition(xs)| == |xs|
    ensures forall k :: 0 <= k < |xs| ==> Some(MapXToPosition(xs)[k]) == PositionOf(xs[k])
  {
    if |xs| > 0 {
      PositionTotal(xs[0]);
      MapXToPositionPointwise(xs[1..]);
      assert forall k :: 0 < k < |xs| ==> xs[k] == xs[1..][k - 1];
    }
  }

  /** Each custom tick lands on its own index, which is what makes the ticks equally spaced. */
  lemma TickLandsOnIndex(i: nat)
    requires i < |Ticks|
    ensures PositionOf(Ticks[i]) == Some(i as real)
  {
    TicksDescending();
    if 0 < i < |Ticks| - 1 {
      var x := Ticks[i];
      assert InSegment(Ticks, i - 1, x);
      FindSegmentSucceeds(Ticks, x, 0);
      var j := FindSegment(Ticks, x, 0).value;
      assert j == i - 1;
      SegmentPositionAtTicks(Ticks, i - 1);
    }
  }

  /** Larger wavenumbers sit further left: the mapping never increases. */
  lemma PositionAntitone(x: real, y: real)
    requires x >= y
    ensures PositionOf(x).value >= 0.0 && PositionOf(x).value <= PositionOf(y).value
  {
    PositionTotal(x);
    PositionTotal(y);
    TicksDescending();
    if 550.0 < y && x < 4000.0 {
      var i := FindSegment(Ticks, x, 0).value;
      var j := FindSegment(Ticks, y, 0).value;
      SegmentPositionBounds(Ticks, i, x);
      SegmentPositionBounds(Ticks, j, y);
      if i == j {
        SegmentPositionAntitone(Ticks, i, x, y);
      } else if i > j {
        // y <= x <= Ticks[i] <= Ticks[j + 1] <= y, so x is Ticks[j + 1] and segment j would have held it first
        assert Ticks[i] <= Ticks[j + 1];
        assert InSegment(Ticks, j, x);
        assert false;
      }
    } else if 550.0 < y < 4000.0 {
      var j := FindSegment(Ticks, y, 0).value;
      SegmentPositionBounds(Ticks, j, y);
    } else if 550.0 < x < 4000.0 {
      var i := FindSegment(Ticks, x, 0).value;
      SegmentPositionBounds(Ticks, i, x);
    }
  }
}

=== FILE: wrappers.dfy ===
/** Optional values, standing in for Python's `None`. */
module Wrappers {

  datatype Option<+T> = None | Some(value: T)

  function MinNat(a: nat, b: nat): (r: nat)
    ensures r <= a && r <= b
    ensures r == a || r == b
  {
    if a <= b then a else b
  }
}
